=== FILE: README.md ===
# Socks warehouse service: a Dafny model

This project models the service layer of a small warehouse application for socks, `SocksServiceImpl`, together with the query predicates of `SocksSpecification` and the projection `SocksMapper.mapToDto`. The warehouse keeps one table of socks rows. Each row has an identity, a color, a cotton part in percent and a quantity. The service offers these operations:

- `income` adds stock for a (color, cottonPart) key, creating the row if the lookup finds none.
- `outcome` takes stock away. It fails when the key is unknown or the stock is too small.
- `update` overwrites the row with a given identity.
- `batchIncome` reads a CSV upload, skips every bad line, and applies find-or-increment to each accepted line.
- `getSocksAmountByFilter` sums the quantities of the rows matching an optional color, an optional operator comparison and an optional cotton-part range.

Every operation is a pure function from the table and the request to the new table and the returned transfer object, or to the exception the service would throw, written as an `Error` value. The repository is a map from identities to rows plus the next identity the generator hands out. `findByColorAndCottonPart` is an exact lookup on that map, and `findAll` enumerates it in identity order. The Java string operations the service relies on are modelled as follows. `split(",")` drops trailing empty fields, as Java's does. `trim` and `endsWith` behave as in Java. `Integer.parseInt` keeps its 32-bit range check but reads only the ASCII digits. `toLowerCase` is modelled on ASCII only.

Modules:

- `JavaText` (text.dfy): the string functions.
- `Inventory` (inventory.dfy): the entity, the transfer object and the table.
- `Mapper` (mapper.dfy): `mapToDto`.
- `Specification` (specification.dfy): the three query predicates.
- `Ledger` (ledger.dfy): `income`, `outcome`, `update`.
- `Aggregate` (aggregate.dfy): `getSocksAmountByFilter`.
- `Batch` (batch.dfy): `batchIncome`, `parseCSVLineToDto`, `validateSocks`.
- `Wrappers` (wrappers.dfy): `Option` and `Result`.

Behaviours of the code that are easy to miss:

- `batchIncome` returns one transfer object per accepted data line, not one per distinct key. Each object is the mapped entity that line touched, read after the whole loop. Lines that share a key therefore return equal objects, each showing the key's final summed quantity (`Batch.BatchOutput`).
- The lookup in `income` and `outcome` uses the color exactly as supplied. A color with an upper-case letter never finds a stored row, because stored colors are lower-case. Such an `income` always inserts, which can give two rows one key (`Ledger.IncomeMixedCaseAlwaysInserts`).
- `update` does not check the new key against other rows (`Ledger.UpdateCanDuplicateKey`).
- The operator names are exactly `moreThan`, `lessThan` and `equal`. One service test passes `eq`, but it runs against a mocked repository that never evaluates the specification. In the code, `eq` with a value is an invalid operator (`Specification.NearMissOperators`).

The source paths below are relative to the repository root.

## Model

| member | source | states |
|---|---|---|
| Inventory.FindByKey | src/main/java/test/backspark/socks/repositrory/SocksRepository.java:13 | `findByColorAndCottonPart`: a found identity holds a row with exactly that key, no row with a smaller identity has it, and nothing is found exactly when no row has the key |
| Inventory.Records | src/main/java/test/backspark/socks/service/impl/SocksServiceImpl.java:208 | `findAll` lists every stored row, each as stored, in strictly increasing identity order, and nothing else |
| Inventory.FindAfterInsert | src/main/java/test/backspark/socks/service/impl/SocksServiceImpl.java:43-53 | after a new row is saved, its key is found at the new identity if the key was absent before; every other lookup is unchanged |
| Mapper.MapToDto | src/main/java/test/backspark/socks/model/mapper/SocksMapper.java:10-17 | identity, cotton part and quantity are copied; the color is present, lower-case and of the same length |
| Mapper.MapToDtoOfLowerCase | src/main/java/test/backspark/socks/model/mapper/SocksMapper.java:10-17 | a row whose color is already lower-case maps to a transfer object equal to the row, field for field |
| Mapper.MapToDtoIgnoresCase | src/main/java/test/backspark/socks/model/mapper/SocksMapper.java:13 | lower-casing the stored color first does not change the transfer object |
| Specification.HasColor | src/main/java/test/backspark/socks/specification/SocksSpecification.java:12-15 | a row matches exactly when no color is given or its color equals the given one |
| Specification.HasCottonPart | src/main/java/test/backspark/socks/specification/SocksSpecification.java:17-29 | an error exactly when both operator and value are present and the operator is not one of the three names; otherwise a row matches exactly when either is absent or the named comparison holds |
| Specification.CottonPartBetween | src/main/java/test/backspark/socks/specification/SocksSpecification.java:31-43 | a row matches exactly when it is at or above the minimum, if one is given, and at or below the maximum, if one is given |
| Specification.InvertedRangeMatchesNothing | src/main/java/test/backspark/socks/specification/SocksSpecification.java:35-36 | a range whose minimum exceeds its maximum matches no row |
| Specification.NearMissOperators | src/main/java/test/backspark/socks/specification/SocksSpecification.java:19-27 | `eq`, `greaterThan` and `EQUAL` with a value are invalid operators; without a value any operator text matches everything |
| Inventory.AddQuantity | src/main/java/test/backspark/socks/service/impl/SocksServiceImpl.java:52-53 | saving a found row with a changed quantity keeps the table valid and every identity, changes that row's quantity by the amount and leaves every other row as it was |
| Inventory.Insert | src/main/java/test/backspark/socks/service/impl/SocksServiceImpl.java:44-53 | saving a new row stores it at the identity the generator hands out, with exactly the given fields, adds nothing else, and advances the generator |
| Ledger.Normalize | src/main/java/test/backspark/socks/service/impl/SocksServiceImpl.java:213-223 | a missing or empty color becomes "", a missing cotton part or quantity becomes 0, and every present value passes through unchanged |
| Ledger.Income | src/main/java/test/backspark/socks/service/impl/SocksServiceImpl.java:38-57 | with the key found, only that row changes, its quantity raised by q; otherwise exactly one row is added at the next identity, with the lower-cased color and quantity q; the result is the mapped row |
| Ledger.Outcome | src/main/java/test/backspark/socks/service/impl/SocksServiceImpl.java:61-75 | unknown key is NotFound; stock below q is InsufficientStock; otherwise only the found row changes, it loses q and stays non-negative, and the result is the mapped row |
| Ledger.Update | src/main/java/test/backspark/socks/service/impl/SocksServiceImpl.java:79-90 | an unknown identity is NotFound; otherwise only that row changes, taking the lower-cased color, the cotton part and the quantity, and the result carries exactly those values |
| Ledger.IncomeAddsToStock | src/main/java/test/backspark/socks/service/impl/SocksServiceImpl.java:43-53 | with a lower-case color, afterwards the key is found and its stock rose by exactly q; every other key's stock is unchanged |
| Ledger.IncomeTwiceAccumulates | src/main/java/test/backspark/socks/service/impl/SocksServiceImpl.java:52 | two incomes for one lower-case key raise its stock by q1 + q2 |
| Ledger.IncomeMixedCaseAlwaysInserts | src/main/java/test/backspark/socks/service/impl/SocksServiceImpl.java:43-50 | when stored colors are lower-case, a color with an upper-case letter always adds a row, and duplicates a key whenever the lower-cased key was already stored |
| Ledger.IncomeKeepsKeyUnique | src/main/java/test/backspark/socks/service/impl/SocksServiceImpl.java:43-53 | an income with a lower-case color keeps every key on at most one row |
| Ledger.LedgerKeepsLowerCaseColors | src/main/java/test/backspark/socks/service/impl/SocksServiceImpl.java:46-84 | income, a successful outcome and a successful update all keep every stored color lower-case |
| Ledger.OutcomeKeepsNonNegative | src/main/java/test/backspark/socks/service/impl/SocksServiceImpl.java:67-72 | a successful outcome never leaves a negative quantity in a table that had none |
| Ledger.OutcomeTakesFromStock | src/main/java/test/backspark/socks/service/impl/SocksServiceImpl.java:64-74 | a successful outcome lowers its key's stock by exactly q and leaves every other key's stock unchanged |
| Ledger.OutcomeUndoesIncome | src/main/java/test/backspark/socks/service/impl/SocksServiceImpl.java:38-75 | on a table without negative quantities, an outcome of what an income just added, for a lower-case key, succeeds and restores the key's stock |
| Ledger.UpdateIdempotent | src/main/java/test/backspark/socks/service/impl/SocksServiceImpl.java:79-90 | applying the same update twice gives the same table and result as applying it once |
| Ledger.UpdateCanDuplicateKey | src/main/java/test/backspark/socks/service/impl/SocksServiceImpl.java:82-87 | an update can give a second row the key of an existing row, starting from a table with unique keys |
| Aggregate.GetSocksAmountByFilter | src/main/java/test/backspark/socks/service/impl/SocksServiceImpl.java:187-211 | an error exactly when an operator and a value are given and the operator is unknown; otherwise the sum of the quantities of exactly the rows the query selects, defined directly on the parameters |
| Aggregate.BuildSpecification | src/main/java/test/backspark/socks/service/impl/SocksServiceImpl.java:196-199 | the composed specification fails exactly when `hasCottonPart` fails, with InvalidOperator; otherwise a row satisfies it exactly when it satisfies the direct reading of the query (trimmed, lower-cased color; operator comparison; inclusive range) |
| Aggregate.SumQuantityNonNegative | src/main/java/test/backspark/socks/service/impl/SocksServiceImpl.java:208-210 | `mapToInt(getQuantity).sum()` over rows whose quantities are all non-negative is non-negative |
| Aggregate.SumQuantityBoundsEach | src/main/java/test/backspark/socks/service/impl/SocksServiceImpl.java:208-210 | over non-negative quantities the sum is at least the quantity of every row |
| Aggregate.WhereIsSelect | src/main/java/test/backspark/socks/service/impl/SocksServiceImpl.java:196-199 | filtering with the composed specification selects the same rows, in the same order, as the direct reading of the query |
| Aggregate.SumQuantityConcat | src/main/java/test/backspark/socks/service/impl/SocksServiceImpl.java:208-210 | the sum over two runs of rows is the sum of the two sums |
| Aggregate.SumQuantityPermutation | src/main/java/test/backspark/socks/service/impl/SocksServiceImpl.java:208-210 | two sequences with the same rows in any order have the same sum |
| Aggregate.SortDoesNotMatter | src/main/java/test/backspark/socks/service/impl/SocksServiceImpl.java:201-210 | the answer equals the sum over any enumeration order of the selected rows, and does not depend on the sort parameters |
| Aggregate.UnfilteredSumsEverything | src/main/java/test/backspark/socks/service/impl/SocksServiceImpl.java:196-210 | with no filter the answer is the total quantity of every row |
| Aggregate.NoMatchSumsToZero | src/main/java/test/backspark/socks/service/impl/SocksServiceImpl.java:208-210 | when no row satisfies the query the answer is 0 |
| Aggregate.BogusOperatorFails | src/main/java/test/backspark/socks/specification/SocksSpecification.java:26 | an unknown operator with a value fails on any table, even an empty one |
| Batch.ParseCsvLine | src/main/java/test/backspark/socks/service/impl/SocksServiceImpl.java:152-171 | rejected exactly when the line does not split into three fields or a number does not parse; an accepted row has the first field trimmed and lower-cased and the two numbers as `parseInt` reads them |
| Batch.ValidateSocks | src/main/java/test/backspark/socks/service/impl/SocksServiceImpl.java:173-183 | no error exactly when the color is non-empty, the cotton part is in [0, 100] and the quantity is positive; otherwise the error of the first failing check |
| Batch.AcceptLine | src/main/java/test/backspark/socks/service/impl/SocksServiceImpl.java:116-117 | every row a line yields after parsing and validation is clean: trimmed, lower-case, comma-free, non-empty, cotton part in [0, 100], quantity positive and within `int` |
| Batch.AcceptFormatRow | src/main/java/test/backspark/socks/service/impl/SocksServiceImpl.java:152-171 | every clean row written as a CSV line is read back as that row |
| Batch.TrailingCommaAccepted | src/main/java/test/backspark/socks/service/impl/SocksServiceImpl.java:153-154 | a trailing comma after a clean row still reads as that row, because `split` drops the empty last field |
| Batch.OnlyCommasRejected | src/main/java/test/backspark/socks/service/impl/SocksServiceImpl.java:153-155 | the line ",," splits into no fields and is rejected for its column count |
| Batch.NoCommaRejected | src/main/java/test/backspark/socks/service/impl/SocksServiceImpl.java:153-155 | a line without a comma is one column and is rejected for its column count |
| Batch.AcceptedRows | src/main/java/test/backspark/socks/service/impl/SocksServiceImpl.java:113-136 | the rows the data lines yield, in line order, are all clean |
| Batch.ToEntry | src/main/java/test/backspark/socks/service/impl/SocksServiceImpl.java:119-128 | the lookup color is lower-case and as long as the row's color; the saved color is the row's color with only blanks removed from its ends, and no blank left at either end; the numbers are copied |
| Batch.ToEntryOfClean | src/main/java/test/backspark/socks/service/impl/SocksServiceImpl.java:119-128 | for a clean row, the lower-cased lookup color and the trimmed saved color are both the row's own color |
| Batch.ApplyEntry | src/main/java/test/backspark/socks/service/impl/SocksServiceImpl.java:119-131 | find-or-increment keeps the table valid, keeps every identity and every stored row's key, and the touched identity is a row of the new table |
| Batch.ApplyEntries | src/main/java/test/backspark/socks/service/impl/SocksServiceImpl.java:113-136 | the loop keeps the table valid, keeps every identity, and never changes the key of a row that was already stored; its effect on stock is `Batch.ApplyEntriesStock` |
| Batch.Touched | src/main/java/test/backspark/socks/service/impl/SocksServiceImpl.java:133 | `processedEntities` gets exactly one identity per accepted line; where each one sits is stated by `Batch.TouchedInTable` and `Batch.ApplyEntriesTouches` |
| Batch.MapTouched | src/main/java/test/backspark/socks/service/impl/SocksServiceImpl.java:143-145 | one transfer object per touched identity, in the same order, each the mapping of that identity's row in the final table |
| Batch.TouchedInTable | src/main/java/test/backspark/socks/service/impl/SocksServiceImpl.java:119-132 | every identity the loop touched is a row of the final table |
| Batch.ApplyEntriesTouches | src/main/java/test/backspark/socks/service/impl/SocksServiceImpl.java:119-132 | the i-th touched identity is where the i-th line's key resolves in the final table |
| Batch.ApplyEntriesStock | src/main/java/test/backspark/socks/service/impl/SocksServiceImpl.java:119-131 | after the loop, each key's stock is its old stock plus the quantities of every accepted line with that key |
| Batch.ApplyEntriesKeepsKeyUnique | src/main/java/test/backspark/socks/service/impl/SocksServiceImpl.java:119-131 | the loop never gives two rows one key when no key had two rows before |
| Batch.RejectedLineSkipped | src/main/java/test/backspark/socks/service/impl/SocksServiceImpl.java:114-136 | a line that fails parsing or validation contributes no row: the rows are as if it were absent |
| Batch.Import | src/main/java/test/backspark/socks/service/impl/SocksServiceImpl.java:113-145 | one transfer object per accepted row, each carrying an identity of the final table and equal to the mapping of the row stored there; which identity it is, is stated by `Batch.ImportOutput` |
| Batch.ImportOutput | src/main/java/test/backspark/socks/service/impl/SocksServiceImpl.java:113-145 | for clean rows, the i-th object carries the identity the i-th row's key resolves to in the final table, that key, and the key's old stock plus every quantity for it |
| Batch.ApplyEntriesKeepsLowerCase | src/main/java/test/backspark/socks/service/impl/SocksServiceImpl.java:119-131 | the loop keeps every stored color lower-case when every saved color is lower-case |
| Batch.BatchIncome | src/main/java/test/backspark/socks/service/impl/SocksServiceImpl.java:94-149 | InvalidFileFormat exactly when the name is missing or not `.csv`, the file is empty, or there is no header line; otherwise the import of the lines after the header |
| Batch.BatchOutput | src/main/java/test/backspark/socks/service/impl/SocksServiceImpl.java:113-148 | the i-th result carries the identity the i-th accepted line's key resolves to in the final table, has that key, and has a quantity equal to the key's old stock plus all accepted quantities for that key |
| Batch.BatchSkipsRejected | src/main/java/test/backspark/socks/service/impl/SocksServiceImpl.java:134-136 | deleting a rejected data line from the file changes neither the table nor the result |
| Batch.BatchKeepsKeyUnique | src/main/java/test/backspark/socks/service/impl/SocksServiceImpl.java:113-136 | an import into a table with unique keys leaves the keys unique |
| Batch.BatchKeepsLowerCaseColors | src/main/java/test/backspark/socks/service/impl/SocksServiceImpl.java:119-132 | an import into a table whose colors are lower-case keeps them lower-case, as `income`, `outcome` and `update` do |
| JavaText.Lower | src/main/java/test/backspark/socks/service/impl/SocksServiceImpl.java:46 | `toLowerCase` keeps the length and maps each character through the ASCII lower-casing |
| JavaText.Trim | src/main/java/test/backspark/socks/service/impl/SocksServiceImpl.java:158 | `trim` gives a text with no blank at either end, which the input contains with only blanks before and after it |
| JavaText.TrimUnique | src/main/java/test/backspark/socks/service/impl/SocksServiceImpl.java:158 | any text with no blank at either end that the input pads only with blanks is the result of `trim`, so the contract of `JavaText.Trim` fixes its result |
| JavaText.TrimOfTrimmed | src/main/java/test/backspark/socks/service/impl/SocksServiceImpl.java:158 | trimming a text with no blank at either end changes nothing |
| JavaText.Split | src/main/java/test/backspark/socks/service/impl/SocksServiceImpl.java:153 | the fields contain no comma; a text without a comma is its own single field; with a comma, the last field kept is not empty |
| JavaText.SplitJoin | src/main/java/test/backspark/socks/service/impl/SocksServiceImpl.java:153 | splitting comma-free fields joined by commas gives them back, unless the last is empty |
| JavaText.EndsWith | src/main/java/test/backspark/socks/service/impl/SocksServiceImpl.java:98 | `endsWith` holds exactly when the text is some prefix followed by the suffix |
| JavaText.ParseInt | src/main/java/test/backspark/socks/service/impl/SocksServiceImpl.java:163-164 | a parsed value lies in the `int` range and comes from an optional sign followed by at least one digit; unsigned digits are read as their value when it fits an `int` and rejected otherwise; a signed number is read as its signed value when that fits an `int` and rejected otherwise |
| JavaText.ParseShowInt | src/main/java/test/backspark/socks/service/impl/SocksServiceImpl.java:163-164 | `parseInt` reads back every `int` that `toString` prints |

## Left out

- Inventory.FindByKey: when several rows share a key, the Spring Data derived query throws `IncorrectResultSizeDataAccessException` and the transaction rolls back. The model returns the row with the smallest identity instead. Such tables are reachable through a mixed-case `income` or an `update`.
- Ledger.Income: inherits the several-rows lookup of `Inventory.FindByKey` (SocksServiceImpl.java:43), where the code would throw. The addition `getQuantity() + q` (:52) is on unbounded integers, so Java's 32-bit wrap-around is not modelled.
- Ledger.Outcome: inherits the several-rows lookup (:64), where the code would throw. The subtraction (:72) is on unbounded integers, without the 32-bit wrap-around.
- Ledger.Normalize: the Java method writes the defaults into the caller's transfer object in place (:214-222). The model returns a fresh request and leaves the caller's object as it was.
- Batch.BatchIncome: inherits the several-rows lookup (:119). There the code would throw out of the loop, since that exception is not an `IllegalArgumentException`, and roll back the whole batch. The addition at :121 has no 32-bit wrap-around. The `IOException` path (:138-141) is left out. The upload is given already split into lines, so `BufferedReader` line splitting and UTF-8 decoding are not modelled.
- Batch.ParseCsvLine: lower-casing and digit parsing are ASCII-only, as in `JavaText.Lower` and `JavaText.ParseInt`.
- Aggregate.GetSocksAmountByFilter: `mapToInt(..).sum()` (:208-210) is an unbounded sum, without the 32-bit wrap-around. A `sortBy` that names no entity property makes `findAll` throw `PropertyReferenceException` (:202-208). The model never reads `sortBy` or `sortDirection`, which is why the second part of `Aggregate.SortDoesNotMatter` holds.
- JavaText.Lower: ASCII only. Java's `toLowerCase()` uses the default locale and full Unicode case mapping, for example the Turkish dotless i.
- JavaText.ParseInt: accepts only the ASCII digits `0`-`9`. `Integer.parseInt` accepts any Unicode decimal digit.
- Mapper.MapToDto: its lower-casing is the ASCII-only `JavaText.Lower`.
- The controller, bean validation, the global exception handler, logging, and the entity's `brand`, `article` and timestamp columns take no part in the service logic and are not modelled.
- Database transactions, concurrency and identity-generator gaps are not modelled. The generator hands out consecutive identities starting at 1.

=== FILE: aggregate.dfy ===
/**
 * `getSocksAmountByFilter`: the three optional predicates AND-ed into one
 * specification, the matching rows enumerated, their quantities summed.
 */
module Aggregate {
  import opened Wrappers
  import opened JavaText
  import opened Inventory
  import opened Specification

  /** The request parameters of the aggregate query; every one may be absent. */
  datatype Query = Query(
    color: Option<string>,
    operator: Option<string>,
    cottonPart: Option<int>,
    minCottonPart: Option<int>,
    maxCottonPart: Option<int>,
    sortBy: Option<string>,
    sortDirection: Option<string>)

  /** A query with no filter at all. */
  predicate Unfiltered(q: Query)
  {
    q.color.None? && (q.operator.None? || q.cottonPart.None?) && q.minCottonPart.None? && q.maxCottonPart.None?
  }

  /** No row has a negative quantity. */
  predicate QuantitiesNonNegative(rows: seq<Socks>)
  {
    forall i :: 0 <= i < |rows| ==> rows[i].quantity >= 0
  }

  /**
   * Total quantity of a sequence of rows (`mapToInt(getQuantity).sum()`);
   * never negative over non-negative quantities (`SumQuantityNonNegative`),
   * and then at least each one of them (`SumQuantityBoundsEach`).
   */
  function SumQuantity(rows: seq<Socks>): int
    decreases |rows|
  {
    if |rows| == 0 then 0 else rows[0].quantity + SumQuantity(rows[1..])
  }

  /** The rows, in order, that satisfy every part of the specification. */
  function Where(rows: seq<Socks>, spec: seq<Criterion>): (r: seq<Socks>)
    decreases |rows|
  {
    if |rows| == 0 then []
    else if HoldsAll(spec, rows[0]) then [rows[0]] + Where(rows[1..], spec)
    else Where(rows[1..], spec)
  }

  /** The specification composed from the query: color (trimmed, lower-cased), operator, range. */
  function BuildSpecification(q: Query): (r: Result<seq<Criterion>, Error>)
    ensures r.Failure? <==> HasCottonPart(q.operator, q.cottonPart).Failure?
    ensures r.Failure? ==> r.error == InvalidOperator
    ensures r.Success? ==> forall x :: HoldsAll(r.value, x) <==> Selected(q, x)
  {
    var color := if q.color.Some? then Some(Lower(Trim(q.color.value))) else None;
    match HasCottonPart(q.operator, q.cottonPart)
    case Failure(e) => Failure(e)
    case Success(cotton) =>
      var spec := [HasColor(color), cotton, CottonPartBetween(q.minCottonPart, q.maxCottonPart)];
      assert forall x :: HoldsAll(spec, x) <==> Selected(q, x) by {
        forall x ensures HoldsAll(spec, x) <==> Selected(q, x) {
          assert HoldsAll(spec, x) <==> Holds(spec[0], x) && Holds(spec[1], x) && Holds(spec[2], x);
        }
      }
      Success(spec)
  }

  /** What the query asks for, stated directly on its parameters. */
  predicate Selected(q: Query, r: Socks)
  {
    && (q.color.None? || r.color == Lower(Trim(q.color.value)))
    && (q.operator.None? || q.cottonPart.None? || Compares(q.operator.value, r.cottonPart, q.cottonPart.value))
    && (q.minCottonPart.None? || q.minCottonPart.value <= r.cottonPart)
    && (q.maxCottonPart.None? || r.cottonPart <= q.maxCottonPart.value)
  }

  /** The rows, in order, the query asks for. */
  function Select(rows: seq<Socks>, q: Query): seq<Socks>
    decreases |rows|
  {
    if |rows| == 0 then []
    else if Selected(q, rows[0]) then [rows[0]] + Select(rows[1..], q)
    else Select(rows[1..], q)
  }

  /** Filtering with an equivalent specification selects the same rows. */
  lemma {:induction false} WhereIsSelect(rows: seq<Socks>, spec: seq<Criterion>, q: Query)
    requires forall x :: HoldsAll(spec, x) <==> Selected(q, x)
    ensures Where(rows, spec) == Select(rows, q)
    decreases |rows|
  {
    if |rows| > 0 {
      WhereIsSelect(rows[1..], spec, q);
    }
  }

  /**
   * `getSocksAmountByFilter`: an unknown operator (with a value) is an
   * error raised before any row is read; otherwise the sum of the quantities
   * of exactly the rows the query selects. The sort parameters take no part.
   */
  function GetSocksAmountByFilter(s: Store, q: Query): (r: Result<int, Error>)
    requires Valid(s)
    ensures r.Failure? <==> q.operator.Some? && q.cottonPart.Some? && q.operator.value !in OperatorNames
    ensures r.Failure? ==> r.error == InvalidOperator
    ensures r.Success? ==> r.value == SumQuantity(Select(Records(s), q))
  {
    match BuildSpecification(q)
    case Failure(e) => Failure(e)
    case Success(spec) =>
      WhereIsSelect(Records(s), spec, q);
      Success(SumQuantity(Where(Records(s), spec)))
  }

  // ---------------------------------------------------------------------
  // Sums

  lemma {:induction false} SumQuantityConcat(a: seq<Socks>, b: seq<Socks>)
    ensures SumQuantity(a + b) == SumQuantity(a) + SumQuantity(b)
    decreases |a|
  {
    if |a| > 0 {
      SumQuantityConcat(a[1..], b);
      assert (a + b)[0] == a[0];
      assert (a + b)[1..] == a[1..] + b;
    } else {
      assert a + b == b;
    }
  }

  /** Over non-negative quantities the sum is non-negative. */
  lemma {:induction false} SumQuantityNonNegative(rows: seq<Socks>)
    requires QuantitiesNonNegative(rows)
    ensures SumQuantity(rows) >= 0
    decreases |rows|
  {
    if |rows| > 0 {
      assert QuantitiesNonNegative(rows[1..]) by {
        forall k | 0 <= k < |rows| - 1 ensures rows[1..][k].quantity >= 0 {
          assert rows[1..][k] == rows[k + 1];
        }
      }
      SumQuantityNonNegative(rows[1..]);
    }
  }

  /** Over non-negative quantities the sum is at least the quantity of each row. */
  lemma SumQuantityBoundsEach(rows: seq<Socks>, i: int)
    requires QuantitiesNonNegative(rows) && 0 <= i < |rows|
    ensures rows[i].quantity <= SumQuantity(rows)
  {
    SumQuantityRemove(rows, i);
    var rest := rows[..i] + rows[i + 1..];
    assert QuantitiesNonNegative(rest) by {
      forall k | 0 <= k < |rest| ensures rest[k].quantity >= 0 {
        if k < i { assert rest[k] == rows[k]; }
        else { assert rest[k] == rows[k + 1]; }
      }
    }
    SumQuantityNonNegative(rest);
  }

  /** Taking one row out of the sequence takes its quantity out of the sum. */
  lemma SumQuantityRemove(b: seq<Socks>, i: int)
    requires 0 <= i < |b|
    ensures SumQuantity(b) == b[i].quantity + SumQuantity(b[..i] + b[i + 1..])
  {
    assert b[..i] + b[i..] == b;
    SumQuantityConcat(b[..i], b[i..]);
    assert b[i..][1..] == b[i + 1..];
    assert SumQuantity(b[i..]) == b[i].quantity + SumQuantity(b[i + 1..]);
    SumQuantityConcat(b[..i], b[i + 1..]);
  }

  /**
   * In two sequences with the same elements, the first of one occurs
   * somewhere in the other, and the rests have the same elements too.
   */
  lemma MatchFirst(a: seq<Socks>, b: seq<Socks>) returns (i: int)
    requires |a| > 0 && multiset(a) == multiset(b)
    ensures 0 <= i < |b| && b[i] == a[0]
    ensures multiset(a[1..]) == multiset(b[..i] + b[i + 1..])
  {
    assert a[0] in multiset(a);
    i :| 0 <= i < |b| && b[i] == a[0];
    assert a == [a[0]] + a[1..];
    assert b == b[..i] + [b[i]] + b[i + 1..];
    assert multiset(b) == multiset(b[..i]) + multiset{b[i]} + multiset(b[i + 1..]);
    assert multiset(a) == multiset{a[0]} + multiset(a[1..]);
    assert multiset(b[..i] + b[i + 1..]) == multiset(b[..i]) + multiset(b[i + 1..]);
    assert multiset(a[1..]) == multiset(a) - multiset{a[0]};
    assert multiset(b[..i] + b[i + 1..]) == multiset(b) - multiset{b[i]};
  }

  /** The sum does not depend on the order of the rows. */
  lemma {:induction false} SumQuantityPermutation(a: seq<Socks>, b: seq<Socks>)
    requires multiset(a) == multiset(b)
    ensures SumQuantity(a) == SumQuantity(b)
    decreases |a|
  {
    if |a| > 0 {
      var i := MatchFirst(a, b);
      SumQuantityPermutation(a[1..], b[..i] + b[i + 1..]);
      SumQuantityRemove(b, i);
    }
  }

  /** When the query holds for every row, it selects all of them. */
  lemma {:induction false} SelectAll(rows: seq<Socks>, q: Query)
    requires forall i :: 0 <= i < |rows| ==> Selected(q, rows[i])
    ensures Select(rows, q) == rows
    decreases |rows|
  {
    if |rows| > 0 {
      SelectAll(rows[1..], q);
    }
  }

  /** When the query holds for no row, it selects nothing. */
  lemma {:induction false} SelectNone(rows: seq<Socks>, q: Query)
    requires forall i :: 0 <= i < |rows| ==> !Selected(q, rows[i])
    ensures Select(rows, q) == []
    decreases |rows|
  {
    if |rows| > 0 {
      SelectNone(rows[1..], q);
    }
  }

  // ---------------------------------------------------------------------
  // Properties of the aggregate

  /**
   * Sorting cannot change the answer: summing the selected rows in any
   * order the enumeration might return them gives the same total.
   */
  lemma SortDoesNotMatter(s: Store, q: Query, enumerated: seq<Socks>)
    requires Valid(s)
    requires multiset(enumerated) == multiset(Select(Records(s), q))
    ensures GetSocksAmountByFilter(s, q).Success? ==> GetSocksAmountByFilter(s, q).value == SumQuantity(enumerated)
    ensures forall field, dir :: GetSocksAmountByFilter(s, q.(sortBy := field, sortDirection := dir)) == GetSocksAmountByFilter(s, q)
  {
    SumQuantityPermutation(enumerated, Select(Records(s), q));
  }

  /** With no filter the answer is the quantity of every row in the table. */
  lemma UnfilteredSumsEverything(s: Store, q: Query)
    requires Valid(s) && Unfiltered(q)
    ensures GetSocksAmountByFilter(s, q) == Success(SumQuantity(Records(s)))
  {
    SelectAll(Records(s), q);
  }

  /** When no row matches, the answer is 0. */
  lemma NoMatchSumsToZero(s: Store, q: Query)
    requires Valid(s)
    requires forall k :: k in s.rows ==> !Selected(q, s.rows[k])
    ensures GetSocksAmountByFilter(s, q).Success? ==> GetSocksAmountByFilter(s, q).value == 0
  {
    SelectNone(Records(s), q);
  }

  /** An unknown operator fails whatever the table holds, even an empty one. */
  lemma BogusOperatorFails(s: Store, value: int)
    requires Valid(s)
    ensures GetSocksAmountByFilter(s, Query(None, Some("bogus"), Some(value), None, None, None, None)) == Failure(InvalidOperator)
  {
  }
}

=== FILE: batch.dfy ===
/**
 * `batchIncome` with `parseCSVLineToDto` and `validateSocks`: a file-level
 * gate, a discarded header, then a left fold over the data lines in which
 * every bad line is skipped and every accepted one goes through
 * find-or-increment on its lower-cased key.
 */
module Batch {
  import opened Wrappers
  import opened JavaText
  import opened Inventory
  import opened Mapper
  import Ledger

  /** The uploaded file: its original name (may be null), whether it has no bytes, and its text as lines. */
  datatype Upload = Upload(filename: Option<string>, isEmpty: bool, lines: seq<string>)

  /** A data line once parsed: the transfer object `parseCSVLineToDto` builds, without its null id. */
  datatype Row = Row(color: string, cottonPart: int, quantity: int)

  /** Why a line was skipped: the `IllegalArgumentException` it raised. */
  datatype RowError = WrongColumnCount | NotANumber | EmptyColor | CottonPartOutOfRange | NonPositiveQuantity

  /** What every accepted row looks like. */
  predicate CleanRow(row: Row)
  {
    && |row.color| > 0 && IsTrimmed(row.color) && IsLowerCase(row.color) && ',' !in row.color
    && 0 <= row.cottonPart <= 100
    && 0 < row.quantity <= MaxInt
  }

  /**
   * `parseCSVLineToDto` after the split: exactly three fields; the color
   * trimmed and lower-cased; the two numbers trimmed and parsed as `int`.
   */
  function ParseFields(parts: seq<string>): (r: Result<Row, RowError>)
    requires CommaFree(parts)
    ensures r.Success? ==>
      && IsTrimmed(r.value.color) && IsLowerCase(r.value.color) && ',' !in r.value.color
      && MinInt <= r.value.cottonPart <= MaxInt && MinInt <= r.value.quantity <= MaxInt
  {
    if |parts| != 3 then Failure(WrongColumnCount)
    else
      var color := Lower(Trim(parts[0]));
      LowerKeepsTrimmed(Trim(parts[0]));
      LowerIsLowerCase(Trim(parts[0]));
      TrimKeepsCommaFree(parts[0]);
      LowerKeepsCommaFree(Trim(parts[0]));
      var cottonPart := ParseInt(Trim(parts[1]));
      var quantity := ParseInt(Trim(parts[2]));
      if cottonPart.None? || quantity.None? then Failure(NotANumber)
      else Success(Row(color, cottonPart.value, quantity.value))
  }

  /**
   * `parseCSVLineToDto`: `split(",")`, then the fields. A line is rejected
   * exactly when it does not split into three fields or one of the two
   * numbers does not parse; an accepted row carries the first field trimmed
   * and lower-cased and the two numbers as parsed.
   */
  function ParseCsvLine(line: string): (r: Result<Row, RowError>)
    ensures var parts := Split(line);
      && (|parts| != 3 ==> r == Failure(WrongColumnCount))
      && (|parts| == 3 ==>
        && (r.Failure? <==> ParseInt(Trim(parts[1])).None? || ParseInt(Trim(parts[2])).None?)
        && (r.Failure? ==> r.error == NotANumber)
        && (r.Success? ==>
          && r.value.color == Lower(Trim(parts[0]))
          && IsTrimmed(r.value.color) && IsLowerCase(r.value.color) && ',' !in r.value.color
          && ParseInt(Trim(parts[1])) == Some(r.value.cottonPart)
          && ParseInt(Trim(parts[2])) == Some(r.value.quantity)))
  {
    ParseFields(Split(line))
  }

  /**
   * `validateSocks`: a non-empty color, a cotton part in [0, 100], a positive
   * quantity, checked in that order, so the error named is the first check
   * that fails.
   */
  function ValidateSocks(row: Row): (r: Option<RowError>)
    ensures r.None? <==> |row.color| > 0 && 0 <= row.cottonPart <= 100 && row.quantity > 0
    ensures r == Some(EmptyColor) <==> |row.color| == 0
    ensures r == Some(CottonPartOutOfRange) <==> |row.color| > 0 && !(0 <= row.cottonPart <= 100)
    ensures r == Some(NonPositiveQuantity) <==> |row.color| > 0 && 0 <= row.cottonPart <= 100 && row.quantity <= 0
  {
    if |row.color| == 0 then Some(EmptyColor)
    else if row.cottonPart < 0 || row.cottonPart > 100 then Some(CottonPartOutOfRange)
    else if row.quantity <= 0 then Some(NonPositiveQuantity)
    else None
  }

  /** Parsed fields through validation; every accepted row is clean. */
  function AcceptFields(parts: seq<string>): (r: Result<Row, RowError>)
    requires CommaFree(parts)
    ensures r.Success? ==> CleanRow(r.value)
  {
    match ParseFields(parts)
    case Failure(e) => Failure(e)
    case Success(row) =>
      match ValidateSocks(row)
      case Some(e) => Failure(e)
      case None => Success(row)
  }

  /** One data line through parsing and validation; every accepted row is clean. */
  function AcceptLine(line: string): (r: Result<Row, RowError>)
    ensures r.Success? ==> CleanRow(r.value)
  {
    AcceptFields(Split(line))
  }

  /** A clean row written as a CSV line. */
  function FormatRow(row: Row): string
  {
    Join(RowFields(row))
  }

  /** The fields of a clean row, printed. */
  function RowFields(row: Row): seq<string>
  {
    [row.color, ShowInt(row.cottonPart), ShowInt(row.quantity)]
  }

  lemma RowFieldsCommaFree(row: Row)
    requires CleanRow(row)
    ensures CommaFree(RowFields(row)) && RowFields(row)[2] != ""
  {
    var fs := RowFields(row);
    ShowIntTrimmed(row.cottonPart);
    ShowIntTrimmed(row.quantity);
    assert fs[1] == ShowInt(row.cottonPart) && fs[2] == ShowInt(row.quantity);
    assert |ShowInt(row.quantity)| >= 1;
  }

  lemma ParseRowFields(row: Row)
    requires CleanRow(row) && CommaFree(RowFields(row))
    ensures ParseFields(RowFields(row)) == Success(row)
  {
    var fs := RowFields(row);
    ParseTrimShowInt(row.cottonPart);
    ParseTrimShowInt(row.quantity);
    TrimOfTrimmed(row.color);
    LowerOfLowerCase(row.color);
    assert fs[0] == row.color && fs[1] == ShowInt(row.cottonPart) && fs[2] == ShowInt(row.quantity);
  }

  /** The fields of a clean row, printed, are accepted as that row. */
  lemma AcceptRowFields(row: Row)
    requires CleanRow(row)
    ensures CommaFree(RowFields(row)) && RowFields(row)[2] != ""
    ensures AcceptFields(RowFields(row)) == Success(row)
  {
    RowFieldsCommaFree(row);
    ParseRowFields(row);
  }

  /** Every clean row survives being written as a line and read back. */
  lemma AcceptFormatRow(row: Row)
    requires CleanRow(row)
    ensures AcceptLine(FormatRow(row)) == Success(row)
  {
    AcceptRowFields(row);
    SplitJoin(RowFields(row));
  }

  /** `",,"` has only empty fields, all dropped: zero columns. */
  lemma OnlyCommasRejected()
    ensures AcceptLine(",,") == Failure(WrongColumnCount)
  {
    var fs := ["", "", ""];
    assert CommaFree(fs);
    FieldsOfJoin(fs);
    assert Join(fs) == ",,";
    assert DropTrailingEmpty(fs) == [];
  }

  /** A line without a comma is one column. */
  lemma NoCommaRejected(line: string)
    requires ',' !in line
    ensures AcceptLine(line) == Failure(WrongColumnCount)
  {
  }

  /** A trailing comma adds an empty field that `split` drops: still three columns. */
  lemma TrailingCommaAccepted(row: Row)
    requires CleanRow(row)
    ensures AcceptLine(FormatRow(row) + ",") == Success(row)
  {
    AcceptRowFields(row);
    SplitJoinTrailingComma(RowFields(row));
  }

  // ---------------------------------------------------------------------
  // The loop over data lines

  /**
   * The rows the data lines yield, in line order. A line that fails parsing
   * or validation is caught, logged and skipped, and it is parsed before the
   * table is read, so it has no effect on the table: the loop is the fold of
   * `ApplyEntries` over exactly these rows' entries.
   */
  function AcceptedRows(lines: seq<string>): (r: seq<Row>)
    ensures forall i :: 0 <= i < |r| ==> CleanRow(r[i])
    decreases |lines|
  {
    if |lines| == 0 then []
    else
      match AcceptLine(lines[0])
      case Success(row) => [row] + AcceptedRows(lines[1..])
      case Failure(_) => AcceptedRows(lines[1..])
  }

  /**
   * What the loop body takes to the table from an accepted row: the color it
   * looks the row up by (lower-cased), the color a new row is saved with
   * (trimmed), and the two numbers.
   */
  datatype Entry = Entry(lookup: string, saved: string, cottonPart: int, quantity: int)

  /** `dto.getColor().toLowerCase()` for the lookup, `dto.getColor().trim()` for a new row. */
  function ToEntry(row: Row): (e: Entry)
    ensures IsLowerCase(e.lookup) && |e.lookup| == |row.color|
    ensures IsTrimmed(e.saved) && exists a :: BlankPadded(row.color, e.saved, a)
    ensures e.cottonPart == row.cottonPart && e.quantity == row.quantity
  {
    LowerIsLowerCase(row.color);
    Entry(Lower(row.color), Trim(row.color), row.cottonPart, row.quantity)
  }

  /** The entries of the accepted rows, in row order. */
  function Entries(rows: seq<Row>): (es: seq<Entry>)
    ensures |es| == |rows|
  {
    seq(|rows|, i requires 0 <= i < |rows| => ToEntry(rows[i]))
  }

  /** The lookup color and the saved color agree, so a new row is found under the key it was looked up by. */
  predicate SameColor(e: Entry)
  {
    e.lookup == e.saved
  }

  /** A clean row is already trimmed and lower-case: both derived colors are its own color. */
  lemma ToEntryOfClean(row: Row)
    requires CleanRow(row)
    ensures ToEntry(row) == Entry(row.color, row.color, row.cottonPart, row.quantity)
  {
    LowerOfLowerCase(row.color);
    TrimOfTrimmed(row.color);
  }

  /** Every entry of clean rows carries the row's own color twice, so it is `SameColor`. */
  lemma EntriesOfClean(rows: seq<Row>)
    requires forall j :: 0 <= j < |rows| ==> CleanRow(rows[j])
    ensures forall j :: 0 <= j < |rows| ==> Entries(rows)[j] == Entry(rows[j].color, rows[j].color, rows[j].cottonPart, rows[j].quantity)
    ensures forall j :: 0 <= j < |rows| ==> SameColor(Entries(rows)[j])
  {
    forall j | 0 <= j < |rows| ensures Entries(rows)[j] == Entry(rows[j].color, rows[j].color, rows[j].cottonPart, rows[j].quantity) {
      ToEntryOfClean(rows[j]);
    }
  }

  /**
   * Find-or-increment for one entry: looks up its lookup key; a row found
   * gains the quantity, otherwise a new row is saved with the saved color.
   * Yields the identity it touched.
   */
  function ApplyEntry(s: Store, e: Entry): (r: (Store, int))
    requires Valid(s)
    ensures Valid(r.0) && r.1 in r.0.rows && s.rows.Keys <= r.0.rows.Keys
    ensures forall k :: k in s.rows ==> HasKey(r.0.rows[k], s.rows[k].color, s.rows[k].cottonPart)
  {
    match FindByKey(s, e.lookup, e.cottonPart)
    case Some(id) => (AddQuantity(s, id, e.quantity), id)
    case None => (Insert(s, e.saved, e.cottonPart, e.quantity), s.nextId)
  }

  /** The left fold: each entry is applied to the table the previous ones left. */
  function ApplyEntries(s: Store, es: seq<Entry>): (t: Store)
    requires Valid(s)
    ensures Valid(t) && s.rows.Keys <= t.rows.Keys
    ensures forall k :: k in s.rows ==> HasKey(t.rows[k], s.rows[k].color, s.rows[k].cottonPart)
    decreases |es|
  {
    if |es| == 0 then s
    else ApplyEntries(ApplyEntry(s, es[0]).0, es[1..])
  }

  /** The identity each entry of the fold touched, in order (`processedEntities`). */
  function Touched(s: Store, es: seq<Entry>): (ids: seq<int>)
    requires Valid(s)
    ensures |ids| == |es|
    decreases |es|
  {
    if |es| == 0 then []
    else
      var first := ApplyEntry(s, es[0]);
      var rest := Touched(first.0, es[1..]);
      assert |rest| == |es| - 1;
      [first.1] + rest
  }

  /** One step of the fold: the first entry is applied, the rest folded onto its result. */
  lemma FoldStep(s: Store, es: seq<Entry>, first: (Store, int))
    requires Valid(s) && |es| > 0 && first == ApplyEntry(s, es[0])
    ensures ApplyEntries(s, es) == ApplyEntries(first.0, es[1..])
    ensures Touched(s, es) == [first.1] + Touched(first.0, es[1..])
  {
  }

  /** Every identity the fold touched is a row of the final table. */
  lemma {:induction false} TouchedInTable(s: Store, es: seq<Entry>, i: int)
    requires Valid(s)
    requires 0 <= i < |es|
    ensures Touched(s, es)[i] in ApplyEntries(s, es).rows
    decreases |es|
  {
    var first := ApplyEntry(s, es[0]);
    FoldStep(s, es, first);
    if i > 0 {
      TouchedInTable(first.0, es[1..], i - 1);
    }
  }

  /** The transfer objects of the touched rows, read after the loop. */
  function MapTouched(s: Store, ids: seq<int>): (r: seq<SocksDto>)
    requires forall i :: 0 <= i < |ids| ==> ids[i] in s.rows
    ensures |r| == |ids|
    ensures forall i :: 0 <= i < |ids| ==> r[i] == MapToDto(s.rows[ids[i]])
  {
    seq(|ids|, i requires 0 <= i < |ids| => MapToDto(s.rows[ids[i]]))
  }

  /** The file-level gate: a named `.csv` file with content. */
  predicate AcceptableFile(u: Upload)
  {
    u.filename.Some? && !u.isEmpty && EndsWith(u.filename.value, ".csv")
  }

  /**
   * The loop and its result: the rows' entries folded into the table, then
   * one transfer object per row, each read from the final table at the
   * identity that row touched.
   */
  function Import(s: Store, rows: seq<Row>): (r: (Store, seq<SocksDto>))
    requires Valid(s)
    ensures Valid(r.0) && s.rows.Keys <= r.0.rows.Keys
    ensures |r.1| == |rows|
    ensures forall i :: 0 <= i < |r.1| ==>
      r.1[i].id.Some? && r.1[i].id.value in r.0.rows && r.1[i] == MapToDto(r.0.rows[r.1[i].id.value])
  {
    var es := Entries(rows);
    var t := ApplyEntries(s, es);
    var ids := Touched(s, es);
    assert forall i :: 0 <= i < |ids| ==> ids[i] in t.rows by {
      forall i | 0 <= i < |ids| ensures ids[i] in t.rows {
        TouchedInTable(s, es, i);
      }
    }
    assert forall i :: 0 <= i < |ids| ==> t.rows[ids[i]].id == ids[i];
    (t, MapTouched(t, ids))
  }

  /**
   * `batchIncome`: a missing name, an empty file, a name not ending in
   * `.csv` or a file without even a header line is `InvalidFileFormat`, with
   * no row touched. Otherwise the header is dropped, the data lines folded,
   * and one transfer object returned per accepted line, each showing the
   * final state of the row that line touched.
   */
  function BatchIncome(s: Store, u: Upload): (r: Result<(Store, seq<SocksDto>), Error>)
    requires Valid(s)
    ensures r.Failure? <==> !AcceptableFile(u) || |u.lines| == 0
    ensures r.Failure? ==> r.error == InvalidFileFormat
    ensures r.Success? ==> r.value == Import(s, AcceptedRows(u.lines[1..]))
  {
    if !AcceptableFile(u) then Failure(InvalidFileFormat)
    else if |u.lines| == 0 then Failure(InvalidFileFormat)
    else Success(Import(s, AcceptedRows(u.lines[1..])))
  }

  // ---------------------------------------------------------------------
  // Properties of one entry

  /** The row an entry's lookup finds afterwards is the one it touched. */
  lemma ApplyEntryFinds(s: Store, e: Entry)
    requires Valid(s) && SameColor(e)
    ensures FindByKey(ApplyEntry(s, e).0, e.lookup, e.cottonPart) == Some(ApplyEntry(s, e).1)
  {
    match FindByKey(s, e.lookup, e.cottonPart)
    case Some(id) => FindAfterAdd(s, id, e.quantity, e.lookup, e.cottonPart);
    case None => FindAfterInsert(s, e.saved, e.cottonPart, e.quantity, e.lookup, e.cottonPart);
  }

  /** Once a key resolves to a row, applying any entry keeps it resolving there. */
  lemma ApplyEntryKeepsLookup(s: Store, e: Entry, c: string, cp: int)
    requires Valid(s) && FindByKey(s, c, cp).Some?
    ensures FindByKey(ApplyEntry(s, e).0, c, cp) == FindByKey(s, c, cp)
  {
    match FindByKey(s, e.lookup, e.cottonPart)
    case Some(id) => FindAfterAdd(s, id, e.quantity, c, cp);
    case None => FindAfterInsert(s, e.saved, e.cottonPart, e.quantity, c, cp);
  }

  /** An entry raises its own key's stock by its quantity and no other. */
  lemma ApplyEntryStock(s: Store, e: Entry, c: string, cp: int)
    requires Valid(s) && SameColor(e)
    ensures Stock(ApplyEntry(s, e).0, c, cp) ==
      if c == e.lookup && cp == e.cottonPart then Stock(s, c, cp) + e.quantity else Stock(s, c, cp)
  {
    match FindByKey(s, e.lookup, e.cottonPart)
    case Some(id) =>
      StockAfterAdd(s, id, e.quantity, c, cp);
      if FindByKey(s, c, cp) == Some(id) {
        assert HasKey(s.rows[id], c, cp);
      }
    case None =>
      StockAfterInsert(s, e.saved, e.cottonPart, e.quantity, c, cp);
  }

  /** Applying an entry keeps keys unique. */
  lemma ApplyEntryKeepsKeyUnique(s: Store, e: Entry)
    requires Valid(s) && SameColor(e) && KeyUnique(s)
    ensures KeyUnique(ApplyEntry(s, e).0)
  {
    match FindByKey(s, e.lookup, e.cottonPart)
    case Some(id) => AddKeepsKeyUnique(s, id, e.quantity);
    case None => InsertKeepsKeyUnique(s, e.saved, e.cottonPart, e.quantity);
  }

  /** Applying an entry whose saved color is lower-case keeps every stored color lower-case. */
  lemma ApplyEntryKeepsLowerCase(s: Store, e: Entry)
    requires Valid(s) && Ledger.LowerCaseColors(s) && IsLowerCase(e.saved)
    ensures Ledger.LowerCaseColors(ApplyEntry(s, e).0)
  {
  }

  // ---------------------------------------------------------------------
  // Properties of the loop

  /** The rows of two runs of lines are the rows of each, in order. */
  lemma {:induction false} AcceptedRowsConcat(a: seq<string>, b: seq<string>)
    ensures AcceptedRows(a + b) == AcceptedRows(a) + AcceptedRows(b)
    decreases |a|
  {
    if |a| == 0 {
      assert a + b == b;
    } else {
      assert (a + b)[0] == a[0];
      assert (a + b)[1..] == a[1..] + b;
      AcceptedRowsConcat(a[1..], b);
    }
  }

  /** A bad line contributes nothing: the rows are as if it were absent. */
  lemma RejectedLineSkipped(a: seq<string>, line: string, b: seq<string>)
    requires AcceptLine(line).Failure?
    ensures AcceptedRows(a + [line] + b) == AcceptedRows(a + b)
  {
    AcceptedRowsConcat(a + [line], b);
    AcceptedRowsConcat(a, [line]);
    AcceptedRowsConcat(a, b);
    assert AcceptedRows([line]) == [];
  }

  /** A lookup that resolves before the loop resolves to the same row after it. */
  lemma {:induction false} ApplyEntriesKeepsLookup(s: Store, es: seq<Entry>, c: string, cp: int)
    requires Valid(s) && FindByKey(s, c, cp).Some?
    ensures FindByKey(ApplyEntries(s, es), c, cp) == FindByKey(s, c, cp)
    decreases |es|
  {
    if |es| > 0 {
      ApplyEntryKeepsLookup(s, es[0], c, cp);
      ApplyEntriesKeepsLookup(ApplyEntry(s, es[0]).0, es[1..], c, cp);
    }
  }

  /**
   * The i-th touched identity is the row that the i-th entry's key resolves
   * to in the final table: output order is entry order, and entries with
   * one key share one table row.
   */
  lemma {:induction false} ApplyEntriesTouches(s: Store, es: seq<Entry>, i: int)
    requires Valid(s)
    requires forall j :: 0 <= j < |es| ==> SameColor(es[j])
    requires 0 <= i < |es|
    ensures FindByKey(ApplyEntries(s, es), es[i].lookup, es[i].cottonPart) == Some(Touched(s, es)[i])
    decreases |es|
  {
    var first := ApplyEntry(s, es[0]);
    FoldStep(s, es, first);
    if i == 0 {
      ApplyEntryFinds(s, es[0]);
      ApplyEntriesKeepsLookup(first.0, es[1..], es[0].lookup, es[0].cottonPart);
    } else {
      assert es[i] == es[1..][i - 1];
      ApplyEntriesTouches(first.0, es[1..], i - 1);
    }
  }

  /** The loop saves only lower-case colors when every entry's saved color is lower-case. */
  lemma {:induction false} ApplyEntriesKeepsLowerCase(s: Store, es: seq<Entry>)
    requires Valid(s) && Ledger.LowerCaseColors(s)
    requires forall j :: 0 <= j < |es| ==> IsLowerCase(es[j].saved)
    ensures Ledger.LowerCaseColors(ApplyEntries(s, es))
    decreases |es|
  {
    if |es| > 0 {
      ApplyEntryKeepsLowerCase(s, es[0]);
      assert forall j :: 0 <= j < |es| - 1 ==> es[1..][j] == es[j + 1];
      ApplyEntriesKeepsLowerCase(ApplyEntry(s, es[0]).0, es[1..]);
    }
  }

  /** Total quantity the rows bring to one key. */
  function KeyTotal(rows: seq<Row>, c: string, cp: int): int
    decreases |rows|
  {
    if |rows| == 0 then 0
    else (if rows[0].color == c && rows[0].cottonPart == cp then rows[0].quantity else 0) + KeyTotal(rows[1..], c, cp)
  }

  /** Total quantity the entries bring to one lookup key. */
  function EntryTotal(es: seq<Entry>, c: string, cp: int): int
    decreases |es|
  {
    if |es| == 0 then 0
    else (if es[0].lookup == c && es[0].cottonPart == cp then es[0].quantity else 0) + EntryTotal(es[1..], c, cp)
  }

  /** Entries that carry their rows' colors bring each key what the rows bring it. */
  lemma {:induction false} EntryTotalOfRows(es: seq<Entry>, rows: seq<Row>, c: string, cp: int)
    requires |es| == |rows|
    requires forall j :: 0 <= j < |rows| ==> es[j] == Entry(rows[j].color, rows[j].color, rows[j].cottonPart, rows[j].quantity)
    ensures EntryTotal(es, c, cp) == KeyTotal(rows, c, cp)
    decreases |rows|
  {
    if |rows| > 0 {
      assert forall j :: 0 <= j < |rows| - 1 ==> es[1..][j] == es[j + 1] && rows[1..][j] == rows[j + 1];
      EntryTotalOfRows(es[1..], rows[1..], c, cp);
    }
  }

  /** Duplicate keys accumulate: each key's stock grows by the sum of its entries. */
  lemma {:induction false} ApplyEntriesStock(s: Store, es: seq<Entry>, c: string, cp: int)
    requires Valid(s)
    requires forall i :: 0 <= i < |es| ==> SameColor(es[i])
    ensures Stock(ApplyEntries(s, es), c, cp) == Stock(s, c, cp) + EntryTotal(es, c, cp)
    decreases |es|
  {
    if |es| > 0 {
      ApplyEntryStock(s, es[0], c, cp);
      ApplyEntriesStock(ApplyEntry(s, es[0]).0, es[1..], c, cp);
    }
  }

  /** The loop never gives two rows one key when there were none before. */
  lemma {:induction false} ApplyEntriesKeepsKeyUnique(s: Store, es: seq<Entry>)
    requires Valid(s) && KeyUnique(s)
    requires forall i :: 0 <= i < |es| ==> SameColor(es[i])
    ensures KeyUnique(ApplyEntries(s, es))
    decreases |es|
  {
    if |es| > 0 {
      ApplyEntryKeepsKeyUnique(s, es[0]);
      ApplyEntriesKeepsKeyUnique(ApplyEntry(s, es[0]).0, es[1..]);
    }
  }

  // ---------------------------------------------------------------------
  // Properties of the whole import

  /**
   * The i-th returned object belongs to the i-th accepted data line: it is
   * the row that line's key resolves to in the final table, it has that
   * key, and its quantity is the key's final stock, the old
   * stock plus every accepted line with that key. Lines sharing a key thus
   * return equal objects, all with the summed quantity.
   */
  lemma BatchOutput(s: Store, u: Upload, i: int)
    requires Valid(s)
    requires BatchIncome(s, u).Success?
    requires 0 <= i < |AcceptedRows(u.lines[1..])|
    ensures var out := BatchIncome(s, u).value.1; var rows := AcceptedRows(u.lines[1..]);
      && out[i].id == FindByKey(BatchIncome(s, u).value.0, rows[i].color, rows[i].cottonPart)
      && out[i].color == Some(rows[i].color)
      && out[i].cottonPart == Some(rows[i].cottonPart)
      && out[i].quantity.Some?
      && out[i].quantity.value == Stock(s, rows[i].color, rows[i].cottonPart) + KeyTotal(rows, rows[i].color, rows[i].cottonPart)
  {
    ImportOutput(s, AcceptedRows(u.lines[1..]), i);
  }

  /** `BatchOutput` for any sequence of clean rows. */
  lemma ImportOutput(s: Store, rows: seq<Row>, i: int)
    requires Valid(s)
    requires forall j :: 0 <= j < |rows| ==> CleanRow(rows[j])
    requires 0 <= i < |rows|
    ensures var out := Import(s, rows).1;
      && out[i].id == FindByKey(Import(s, rows).0, rows[i].color, rows[i].cottonPart)
      && out[i].color == Some(rows[i].color)
      && out[i].cottonPart == Some(rows[i].cottonPart)
      && out[i].quantity.Some?
      && out[i].quantity.value == Stock(s, rows[i].color, rows[i].cottonPart) + KeyTotal(rows, rows[i].color, rows[i].cottonPart)
  {
    var es := Entries(rows);
    var t := ApplyEntries(s, es);
    EntriesOfClean(rows);
    ToEntryOfClean(rows[i]);
    TouchedInTable(s, es, i);
    var touched := t.rows[Touched(s, es)[i]];
    assert Import(s, rows).1[i] == MapToDto(touched);
    TouchedRow(s, es, i);
    EntryTotalOfRows(es, rows, rows[i].color, rows[i].cottonPart);
    MapToDtoOfLowerCase(touched);
    assert Import(s, rows).0 == t;
    assert touched.id == Touched(s, es)[i];
  }

  /** The row the i-th entry touched, in the final table, is where its key resolves and has the key's summed stock. */
  lemma TouchedRow(s: Store, es: seq<Entry>, i: int)
    requires Valid(s)
    requires forall j :: 0 <= j < |es| ==> SameColor(es[j])
    requires 0 <= i < |es|
    ensures Touched(s, es)[i] in ApplyEntries(s, es).rows
    ensures FindByKey(ApplyEntries(s, es), es[i].lookup, es[i].cottonPart) == Some(Touched(s, es)[i])
    ensures var row := ApplyEntries(s, es).rows[Touched(s, es)[i]];
      && HasKey(row, es[i].lookup, es[i].cottonPart)
      && row.quantity == Stock(s, es[i].lookup, es[i].cottonPart) + EntryTotal(es, es[i].lookup, es[i].cottonPart)
  {
    var e := es[i];
    var t := ApplyEntries(s, es);
    ApplyEntriesTouches(s, es, i);
    assert Stock(t, e.lookup, e.cottonPart) == t.rows[Touched(s, es)[i]].quantity;
    ApplyEntriesStock(s, es, e.lookup, e.cottonPart);
  }

  /** A bad data line changes nothing: the import is as if it were not in the file. */
  lemma BatchSkipsRejected(s: Store, u: Upload, k: int)
    requires Valid(s)
    requires 1 <= k < |u.lines| && AcceptLine(u.lines[k]).Failure?
    ensures BatchIncome(s, u) == BatchIncome(s, u.(lines := u.lines[..k] + u.lines[k + 1..]))
  {
    DataLineSkipped(u.lines, k);
  }

  /** Dropping a rejected data line from the whole file leaves the accepted rows as they were. */
  lemma DataLineSkipped(lines: seq<string>, k: int)
    requires 1 <= k < |lines| && AcceptLine(lines[k]).Failure?
    ensures AcceptedRows(lines[1..]) == AcceptedRows((lines[..k] + lines[k + 1..])[1..])
  {
    var a, b := lines[1..k], lines[k + 1..];
    assert lines[1..] == a + [lines[k]] + b;
    assert (lines[..k] + lines[k + 1..])[1..] == a + b;
    RejectedLineSkipped(a, lines[k], b);
  }

  /** Importing never gives two rows one key when there were none before. */
  lemma BatchKeepsKeyUnique(s: Store, u: Upload)
    requires Valid(s) && KeyUnique(s)
    requires BatchIncome(s, u).Success?
    ensures KeyUnique(BatchIncome(s, u).value.0)
  {
    var rows := AcceptedRows(u.lines[1..]);
    EntriesOfClean(rows);
    ApplyEntriesKeepsKeyUnique(s, Entries(rows));
  }

  /** An import keeps every stored color lower-case, as `income`, `outcome` and `update` do. */
  lemma BatchKeepsLowerCaseColors(s: Store, u: Upload)
    requires Valid(s) && Ledger.LowerCaseColors(s)
    requires BatchIncome(s, u).Success?
    ensures Ledger.LowerCaseColors(BatchIncome(s, u).value.0)
  {
    var rows := AcceptedRows(u.lines[1..]);
    EntriesOfClean(rows);
    ApplyEntriesKeepsLowerCase(s, Entries(rows));
  }
}

=== FILE: inventory.dfy ===
/**
 * The `socks` entity, its transfer object, and the keyed table that stands in
 * for the JPA repository: lookup by identity, lookup by (color, cottonPart),
 * save, and enumeration in identity order.
 */
module Inventory {
  import opened Wrappers

  /** One row of the `socks` table. `brand`, `article` and the timestamps are never read by the service. */
  datatype Socks = Socks(id: int, color: string, cottonPart: int, quantity: int)

  /** The transfer object exchanged with callers; any field may be null. */
  datatype SocksDto = SocksDto(id: Option<int>, color: Option<string>, cottonPart: Option<int>, quantity: Option<int>)

  /** The exceptions the service raises, as values. */
  datatype Error =
    | NotFound           // SocksNotFoundException
    | InsufficientStock  // NotEnoughSocksException
    | InvalidFileFormat  // InvalidFileFormatException
    | InvalidOperator    // IllegalArgumentException from the cotton-part specification

  /** The table: rows by identity, and the next identity the generator hands out. */
  datatype Store = Store(rows: map<int, Socks>, nextId: int)

  /** Identities are positive, below the generator, and stored in their row. */
  predicate Valid(s: Store)
  {
    && s.nextId >= 1
    && forall k :: k in s.rows ==> 1 <= k < s.nextId && s.rows[k].id == k
  }

  /** The row has the logical key (color, cottonPart), compared exactly as a query would. */
  predicate HasKey(r: Socks, color: string, cottonPart: int)
  {
    r.color == color && r.cottonPart == cottonPart
  }

  /** At most one row per logical key. */
  predicate KeyUnique(s: Store)
  {
    forall a, b :: a in s.rows && b in s.rows && HasKey(s.rows[a], s.rows[b].color, s.rows[b].cottonPart) ==> a == b
  }

  /** The first identity in [i, hi) whose row has the key. */
  function FindFrom(rows: map<int, Socks>, color: string, cottonPart: int, i: int, hi: int): (r: Option<int>)
    ensures r.Some? ==> i <= r.value < hi && r.value in rows && HasKey(rows[r.value], color, cottonPart)
    ensures r.Some? ==> forall j :: i <= j < r.value && j in rows ==> !HasKey(rows[j], color, cottonPart)
    ensures r.None? ==> forall j :: i <= j < hi && j in rows ==> !HasKey(rows[j], color, cottonPart)
    decreases hi - i
  {
    if i >= hi then None
    else if i in rows && HasKey(rows[i], color, cottonPart) then Some(i)
    else FindFrom(rows, color, cottonPart, i + 1, hi)
  }

  /**
   * `findByColorAndCottonPart`: the row with that exact key; when several rows
   * share it (possible after `update`), the one with the smallest identity.
   */
  function FindByKey(s: Store, color: string, cottonPart: int): (r: Option<int>)
    requires Valid(s)
    ensures r.Some? ==> r.value in s.rows && HasKey(s.rows[r.value], color, cottonPart)
    ensures r.Some? ==> forall j :: j in s.rows && HasKey(s.rows[j], color, cottonPart) ==> r.value <= j
    ensures r.None? <==> forall j :: j in s.rows ==> !HasKey(s.rows[j], color, cottonPart)
  {
    FindFrom(s.rows, color, cottonPart, 1, s.nextId)
  }

  /** The lookup depends only on which identities hold the key. */
  lemma FindByKeyDetermined(s: Store, t: Store, color: string, cottonPart: int)
    requires Valid(s) && Valid(t)
    requires forall j :: j in s.rows && HasKey(s.rows[j], color, cottonPart) ==> j in t.rows && HasKey(t.rows[j], color, cottonPart)
    requires forall j :: j in t.rows && HasKey(t.rows[j], color, cottonPart) ==> j in s.rows && HasKey(s.rows[j], color, cottonPart)
    ensures FindByKey(s, color, cottonPart) == FindByKey(t, color, cottonPart)
  {
    var a := FindByKey(s, color, cottonPart);
    var b := FindByKey(t, color, cottonPart);
    if a.Some? && b.Some? {
      assert a.value <= b.value && b.value <= a.value;
    }
  }

  /** The quantity a lookup by key sees: that of the row it finds, or 0 when there is none. */
  function Stock(s: Store, color: string, cottonPart: int): int
    requires Valid(s)
  {
    match FindByKey(s, color, cottonPart)
    case Some(id) => s.rows[id].quantity
    case None => 0
  }

  /** Saves row `id` with `amount` added to its quantity. */
  function AddQuantity(s: Store, id: int, amount: int): (t: Store)
    requires Valid(s) && id in s.rows
    ensures Valid(t) && t.nextId == s.nextId && t.rows.Keys == s.rows.Keys
    ensures t.rows[id] == s.rows[id].(quantity := s.rows[id].quantity + amount)
    ensures forall k :: k in s.rows && k != id ==> t.rows[k] == s.rows[k]
  {
    s.(rows := s.rows[id := s.rows[id].(quantity := s.rows[id].quantity + amount)])
  }

  /** Saves a new row; the identity generator assigns it `nextId`. */
  function Insert(s: Store, color: string, cottonPart: int, quantity: int): (t: Store)
    requires Valid(s)
    ensures Valid(t) && s.nextId !in s.rows
    ensures t.rows == s.rows[s.nextId := Socks(s.nextId, color, cottonPart, quantity)]
    ensures t.nextId == s.nextId + 1
  {
    Store(s.rows[s.nextId := Socks(s.nextId, color, cottonPart, quantity)], s.nextId + 1)
  }

  /** Changing a quantity does not move any lookup. */
  lemma FindAfterAdd(s: Store, id: int, amount: int, color: string, cottonPart: int)
    requires Valid(s) && id in s.rows
    ensures FindByKey(AddQuantity(s, id, amount), color, cottonPart) == FindByKey(s, color, cottonPart)
  {
    FindByKeyDetermined(s, AddQuantity(s, id, amount), color, cottonPart);
  }

  /** A new row is found by its own key when no older row has that key; other lookups do not move. */
  lemma FindAfterInsert(s: Store, color: string, cottonPart: int, quantity: int, c: string, cp: int)
    requires Valid(s)
    ensures FindByKey(Insert(s, color, cottonPart, quantity), c, cp) ==
      if c == color && cp == cottonPart && FindByKey(s, c, cp).None? then Some(s.nextId)
      else FindByKey(s, c, cp)
  {
    var t := Insert(s, color, cottonPart, quantity);
    if !(c == color && cp == cottonPart) {
      FindByKeyDetermined(s, t, c, cp);
    } else {
      var a := FindByKey(s, c, cp);
      var b := FindByKey(t, c, cp);
      assert b.Some? by {
        assert HasKey(t.rows[s.nextId], c, cp);
      }
      if a.Some? {
        assert t.rows[a.value] == s.rows[a.value];
        assert b.value <= a.value;
        assert b.value != s.nextId;
      }
    }
  }

  /** Adding to the row a lookup finds raises exactly that lookup's stock. */
  lemma StockAfterAdd(s: Store, id: int, amount: int, c: string, cp: int)
    requires Valid(s) && id in s.rows
    ensures Stock(AddQuantity(s, id, amount), c, cp) ==
      if FindByKey(s, c, cp) == Some(id) then Stock(s, c, cp) + amount else Stock(s, c, cp)
  {
    FindAfterAdd(s, id, amount, c, cp);
  }

  /** A new row holds the whole stock of its key when the key was absent; other stocks do not move. */
  lemma StockAfterInsert(s: Store, color: string, cottonPart: int, quantity: int, c: string, cp: int)
    requires Valid(s)
    ensures Stock(Insert(s, color, cottonPart, quantity), c, cp) ==
      if c == color && cp == cottonPart && FindByKey(s, c, cp).None? then quantity
      else Stock(s, c, cp)
  {
    FindAfterInsert(s, color, cottonPart, quantity, c, cp);
  }

  /** Changing a quantity keeps every key, so uniqueness survives. */
  lemma AddKeepsKeyUnique(s: Store, id: int, amount: int)
    requires Valid(s) && id in s.rows && KeyUnique(s)
    ensures KeyUnique(AddQuantity(s, id, amount))
  {
  }

  /** Inserting under a key no row has keeps keys unique. */
  lemma InsertKeepsKeyUnique(s: Store, color: string, cottonPart: int, quantity: int)
    requires Valid(s) && KeyUnique(s) && FindByKey(s, color, cottonPart).None?
    ensures KeyUnique(Insert(s, color, cottonPart, quantity))
  {
    var t := Insert(s, color, cottonPart, quantity);
    forall a, b | a in t.rows && b in t.rows && HasKey(t.rows[a], t.rows[b].color, t.rows[b].cottonPart)
      ensures a == b
    {
      if a != b && (a == s.nextId || b == s.nextId) {
        var older := if a == s.nextId then b else a;
        assert HasKey(s.rows[older], color, cottonPart);
      }
    }
  }

  /** The rows with identities in [i, hi), in identity order. */
  function RowsFrom(s: Store, i: int, hi: int): (r: seq<Socks>)
    requires Valid(s)
    ensures forall k :: 0 <= k < |r| ==> r[k].id in s.rows && s.rows[r[k].id] == r[k] && i <= r[k].id < hi
    ensures forall j :: i <= j < hi && j in s.rows ==> s.rows[j] in r
    ensures forall a, b :: 0 <= a < b < |r| ==> r[a].id < r[b].id
    decreases hi - i
  {
    if i >= hi then []
    else
      var rest := RowsFrom(s, i + 1, hi);
      if i in s.rows then [s.rows[i]] + rest else rest
  }

  /** `findAll`: every row exactly once, in identity order. */
  function Records(s: Store): (r: seq<Socks>)
    requires Valid(s)
    ensures forall k :: 0 <= k < |r| ==> r[k].id in s.rows && s.rows[r[k].id] == r[k]
    ensures forall j :: j in s.rows ==> s.rows[j] in r
    ensures forall a, b :: 0 <= a < b < |r| ==> r[a].id < r[b].id
  {
    RowsFrom(s, 1, s.nextId)
  }
}

=== FILE: ledger.dfy ===
/**
 * The stock ledger of `SocksServiceImpl`: `income`, `outcome` and `update`,
 * each a pure function from the table and a request to the new table and the
 * transfer object returned, or to the error thrown.
 */
module Ledger {
  import opened Wrappers
  import opened JavaText
  import opened Inventory
  import opened Mapper

  /** The three scalars an operation uses once missing values are defaulted. */
  datatype Request = Request(color: string, cottonPart: int, quantity: int)

  /** The table after a successful operation, and the transfer object returned to the caller. */
  datatype Change = Change(store: Store, dto: SocksDto)

  /**
   * `validateStingAndIntegerValues`: a null or empty color becomes "", a null
   * cotton part or quantity becomes 0. Nothing is rejected: negative or
   * out-of-range numbers pass through unchanged.
   */
  function Normalize(d: SocksDto): (n: Request)
    ensures n.color == d.color.GetOr("")
    ensures n.cottonPart == d.cottonPart.GetOr(0)
    ensures n.quantity == d.quantity.GetOr(0)
  {
    Request(
      if d.color.None? || |d.color.value| == 0 then "" else d.color.value,
      if d.cottonPart.None? then 0 else d.cottonPart.value,
      if d.quantity.None? then 0 else d.quantity.value)
  }

  /** Every stored color is lower-case, as every write of the service leaves it. */
  predicate LowerCaseColors(s: Store)
  {
    forall k :: k in s.rows ==> IsLowerCase(s.rows[k].color)
  }

  /** No stored quantity is negative. */
  predicate NonNegative(s: Store)
  {
    forall k :: k in s.rows ==> s.rows[k].quantity >= 0
  }

  /**
   * `income`: looks the key up with the color exactly as supplied; a row
   * found gains the quantity, otherwise one new row is saved with the
   * lower-cased color and quantity 0 + q. No other row changes.
   */
  function Income(s: Store, d: SocksDto): (r: Change)
    requires Valid(s)
    ensures Valid(r.store)
    ensures var n := Normalize(d);
      match FindByKey(s, n.color, n.cottonPart)
      case Some(id) =>
        && r.store.nextId == s.nextId
        && r.store.rows == s.rows[id := s.rows[id].(quantity := s.rows[id].quantity + n.quantity)]
        && r.dto == MapToDto(r.store.rows[id])
      case None =>
        && r.store.nextId == s.nextId + 1
        && r.store.rows == s.rows[s.nextId := Socks(s.nextId, Lower(n.color), n.cottonPart, n.quantity)]
        && r.dto == MapToDto(r.store.rows[s.nextId])
  {
    var n := Normalize(d);
    match FindByKey(s, n.color, n.cottonPart)
    case Some(id) =>
      var t := AddQuantity(s, id, n.quantity);
      Change(t, MapToDto(t.rows[id]))
    case None =>
      var t := Insert(s, Lower(n.color), n.cottonPart, 0);
      var u := AddQuantity(t, s.nextId, n.quantity);
      Change(u, MapToDto(u.rows[s.nextId]))
  }

  /**
   * `outcome`: a missing key is `NotFound`; less stock than asked is
   * `InsufficientStock` (and nothing is written); otherwise the row found
   * loses the quantity, which leaves it non-negative, and no other row changes.
   */
  function Outcome(s: Store, d: SocksDto): (r: Result<Change, Error>)
    requires Valid(s)
    ensures var n := Normalize(d);
      match FindByKey(s, n.color, n.cottonPart)
      case None => r == Failure(NotFound)
      case Some(id) =>
        if s.rows[id].quantity < n.quantity then r == Failure(InsufficientStock)
        else
          && r.Success?
          && Valid(r.value.store)
          && r.value.store.nextId == s.nextId
          && r.value.store.rows == s.rows[id := s.rows[id].(quantity := s.rows[id].quantity - n.quantity)]
          && r.value.store.rows[id].quantity >= 0
          && r.value.dto == MapToDto(r.value.store.rows[id])
  {
    var n := Normalize(d);
    match FindByKey(s, n.color, n.cottonPart)
    case None => Failure(NotFound)
    case Some(id) =>
      if s.rows[id].quantity < n.quantity then Failure(InsufficientStock)
      else
        var t := AddQuantity(s, id, -n.quantity);
        Success(Change(t, MapToDto(t.rows[id])))
  }

  /**
   * `update`: an unknown identity is `NotFound`; otherwise the row keeps its
   * identity and takes the lower-cased color, the cotton part and the
   * quantity wholesale. No other row changes, and no other row is checked
   * for the same key.
   */
  function Update(s: Store, id: int, d: SocksDto): (r: Result<Change, Error>)
    requires Valid(s)
    ensures id !in s.rows ==> r == Failure(NotFound)
    ensures id in s.rows ==> var n := Normalize(d);
      && r.Success?
      && Valid(r.value.store)
      && r.value.store == Store(s.rows[id := Socks(id, Lower(n.color), n.cottonPart, n.quantity)], s.nextId)
      && r.value.dto == SocksDto(Some(id), Some(Lower(n.color)), Some(n.cottonPart), Some(n.quantity))
  {
    var n := Normalize(d);
    if id !in s.rows then Failure(NotFound)
    else
      var row := s.rows[id].(color := Lower(n.color), cottonPart := n.cottonPart, quantity := n.quantity);
      var t := s.(rows := s.rows[id := row]);
      LowerIdempotent(n.color);
      Success(Change(t, MapToDto(row)))
  }

  // ---------------------------------------------------------------------
  // Properties relating several calls

  /**
   * With a lower-case color, `income` raises the stock a lookup sees for the
   * key by exactly the quantity, and no other key's stock moves.
   */
  lemma IncomeAddsToStock(s: Store, d: SocksDto, c: string, cp: int)
    requires Valid(s)
    requires IsLowerCase(Normalize(d).color)
    ensures FindByKey(Income(s, d).store, Normalize(d).color, Normalize(d).cottonPart).Some?
    ensures var n := Normalize(d);
      Stock(Income(s, d).store, c, cp) ==
        if c == n.color && cp == n.cottonPart then Stock(s, c, cp) + n.quantity else Stock(s, c, cp)
  {
    var n := Normalize(d);
    LowerOfLowerCase(n.color);
    match FindByKey(s, n.color, n.cottonPart)
    case Some(id) =>
      StockAfterAdd(s, id, n.quantity, c, cp);
      FindAfterAdd(s, id, n.quantity, n.color, n.cottonPart);
    case None =>
      var t := Insert(s, n.color, n.cottonPart, 0);
      StockAfterInsert(s, n.color, n.cottonPart, 0, c, cp);
      FindAfterInsert(s, n.color, n.cottonPart, 0, c, cp);
      StockAfterAdd(t, s.nextId, n.quantity, c, cp);
      FindAfterInsert(s, n.color, n.cottonPart, 0, n.color, n.cottonPart);
      FindAfterAdd(t, s.nextId, n.quantity, n.color, n.cottonPart);
  }

  /** Two incomes for the same lower-case key accumulate: the stock grows by q1 + q2. */
  lemma IncomeTwiceAccumulates(s: Store, d1: SocksDto, d2: SocksDto)
    requires Valid(s)
    requires Normalize(d1).color == Normalize(d2).color && Normalize(d1).cottonPart == Normalize(d2).cottonPart
    requires IsLowerCase(Normalize(d1).color)
    ensures var c, cp := Normalize(d1).color, Normalize(d1).cottonPart;
      Stock(Income(Income(s, d1).store, d2).store, c, cp) ==
        Stock(s, c, cp) + Normalize(d1).quantity + Normalize(d2).quantity
  {
    var c, cp := Normalize(d1).color, Normalize(d1).cottonPart;
    IncomeAddsToStock(s, d1, c, cp);
    IncomeAddsToStock(Income(s, d1).store, d2, c, cp);
  }

  /**
   * The lookup in `income` is case-sensitive: when every stored color is
   * lower-case, a color with an upper-case letter never finds a row, so a
   * new row is always saved, and it duplicates the key of any row that
   * already holds the lower-cased color.
   */
  lemma IncomeMixedCaseAlwaysInserts(s: Store, d: SocksDto)
    requires Valid(s) && LowerCaseColors(s)
    requires !IsLowerCase(Normalize(d).color)
    ensures Income(s, d).store.nextId == s.nextId + 1
    ensures var n := Normalize(d);
      FindByKey(s, Lower(n.color), n.cottonPart).Some? ==> !KeyUnique(Income(s, d).store)
  {
    var n := Normalize(d);
    var t := Income(s, d).store;
    if FindByKey(s, Lower(n.color), n.cottonPart).Some? {
      var old_id := FindByKey(s, Lower(n.color), n.cottonPart).value;
      assert t.rows[old_id] == s.rows[old_id];
      assert HasKey(t.rows[old_id], t.rows[s.nextId].color, t.rows[s.nextId].cottonPart);
    }
  }

  /** `income` with a lower-case color keeps keys unique. */
  lemma IncomeKeepsKeyUnique(s: Store, d: SocksDto)
    requires Valid(s) && KeyUnique(s)
    requires IsLowerCase(Normalize(d).color)
    ensures KeyUnique(Income(s, d).store)
  {
    var n := Normalize(d);
    LowerOfLowerCase(n.color);
    match FindByKey(s, n.color, n.cottonPart)
    case Some(id) =>
      AddKeepsKeyUnique(s, id, n.quantity);
    case None =>
      InsertKeepsKeyUnique(s, n.color, n.cottonPart, 0);
      AddKeepsKeyUnique(Insert(s, n.color, n.cottonPart, 0), s.nextId, n.quantity);
  }

  /** Every write of the ledger stores a lower-case color. */
  lemma LedgerKeepsLowerCaseColors(s: Store, d: SocksDto, id: int)
    requires Valid(s) && LowerCaseColors(s)
    ensures LowerCaseColors(Income(s, d).store)
    ensures Outcome(s, d).Success? ==> LowerCaseColors(Outcome(s, d).value.store)
    ensures Update(s, id, d).Success? ==> LowerCaseColors(Update(s, id, d).value.store)
  {
    var n := Normalize(d);
    LowerIsLowerCase(n.color);
    assert LowerCaseColors(Income(s, d).store);
    if Update(s, id, d).Success? {
      assert Update(s, id, d).value.store.rows == s.rows[id := Socks(id, Lower(n.color), n.cottonPart, n.quantity)];
    }
  }

  /** `outcome` never makes a quantity negative. */
  lemma OutcomeKeepsNonNegative(s: Store, d: SocksDto)
    requires Valid(s) && NonNegative(s)
    ensures Outcome(s, d).Success? ==> NonNegative(Outcome(s, d).value.store)
  {
  }

  /**
   * A successful `outcome` lowers the stock a lookup sees for its key by
   * exactly the quantity, and no other key's stock moves.
   */
  lemma OutcomeTakesFromStock(s: Store, d: SocksDto, c: string, cp: int)
    requires Valid(s)
    requires Outcome(s, d).Success?
    ensures var n := Normalize(d);
      Stock(Outcome(s, d).value.store, c, cp) ==
        if c == n.color && cp == n.cottonPart then Stock(s, c, cp) - n.quantity else Stock(s, c, cp)
  {
    var n := Normalize(d);
    var id := FindByKey(s, n.color, n.cottonPart).value;
    var t := AddQuantity(s, id, -n.quantity);
    assert Outcome(s, d).value.store == t;
    StockAfterAdd(s, id, -n.quantity, c, cp);
    if c == n.color && cp == n.cottonPart {
      assert Stock(t, c, cp) == Stock(s, c, cp) - n.quantity;
    } else {
      assert !HasKey(s.rows[id], c, cp);
      assert Stock(t, c, cp) == Stock(s, c, cp);
    }
  }

  /**
   * `outcome` undoes `income`: for a lower-case key with non-negative stock,
   * taking out what was just put in succeeds and restores the stock.
   */
  lemma OutcomeUndoesIncome(s: Store, d: SocksDto)
    requires Valid(s) && NonNegative(s)
    requires IsLowerCase(Normalize(d).color)
    ensures var r := Outcome(Income(s, d).store, d);
      && r.Success?
      && Stock(r.value.store, Normalize(d).color, Normalize(d).cottonPart) == Stock(s, Normalize(d).color, Normalize(d).cottonPart)
  {
    var n := Normalize(d);
    var t := Income(s, d).store;
    IncomeAddsToStock(s, d, n.color, n.cottonPart);
    assert Stock(s, n.color, n.cottonPart) >= 0;
    assert Stock(t, n.color, n.cottonPart) >= n.quantity;
    OutcomeTakesFromStock(t, d, n.color, n.cottonPart);
  }

  /** Applying the same `update` twice gives the same table and result as applying it once. */
  lemma UpdateIdempotent(s: Store, id: int, d: SocksDto)
    requires Valid(s)
    requires Update(s, id, d).Success?
    ensures Update(Update(s, id, d).value.store, id, d) == Update(s, id, d)
  {
    var n := Normalize(d);
    var t := Update(s, id, d).value.store;
    var row := Socks(id, Lower(n.color), n.cottonPart, n.quantity);
    assert t.rows[id] == row;
    assert t.rows[id := row] == t.rows;
  }

  /** `update` does not check the new key against other rows: it can give two rows one key. */
  lemma UpdateCanDuplicateKey()
    ensures var s := Store(map[1 := Socks(1, "red", 30, 10), 2 := Socks(2, "blue", 50, 5)], 3);
      && Valid(s) && KeyUnique(s)
      && Update(s, 2, SocksDto(None, Some("Red"), Some(30), Some(1))).Success?
      && !KeyUnique(Update(s, 2, SocksDto(None, Some("Red"), Some(30), Some(1))).value.store)
  {
    var s := Store(map[1 := Socks(1, "red", 30, 10), 2 := Socks(2, "blue", 50, 5)], 3);
    var t := Update(s, 2, SocksDto(None, Some("Red"), Some(30), Some(1))).value.store;
    assert Lower("Red") == "red";
    assert HasKey(t.rows[1], t.rows[2].color, t.rows[2].cottonPart);
  }
}

=== FILE: mapper.dfy ===
/** `SocksMapper`: the projection of a stored row onto its transfer object. */
module Mapper {
  import opened Wrappers
  import opened JavaText
  import opened Inventory

  /** `mapToDto`: every field copied, the color lower-cased. */
  function MapToDto(s: Socks): (d: SocksDto)
    ensures d.id == Some(s.id)
    ensures d.color.Some? && IsLowerCase(d.color.value) && |d.color.value| == |s.color|
    ensures d.cottonPart == Some(s.cottonPart) && d.quantity == Some(s.quantity)
  {
    LowerIsLowerCase(s.color);
    SocksDto(Some(s.id), Some(Lower(s.color)), Some(s.cottonPart), Some(s.quantity))
  }

  /** A row whose color is already lower-case is reproduced field for field. */
  lemma MapToDtoOfLowerCase(s: Socks)
    requires IsLowerCase(s.color)
    ensures MapToDto(s) == SocksDto(Some(s.id), Some(s.color), Some(s.cottonPart), Some(s.quantity))
  {
    LowerOfLowerCase(s.color);
  }

  /** Lower-casing the stored color first changes nothing: the projection is idempotent on colors. */
  lemma MapToDtoIgnoresCase(s: Socks)
    ensures MapToDto(s.(color := Lower(s.color))) == MapToDto(s)
  {
    LowerIdempotent(s.color);
  }
}

=== FILE: specification.dfy ===
/**
 * `SocksSpecification`: the three optional query predicates, as a tagged
 * predicate datatype evaluated row by row.
 */
module Specification {
  import opened Wrappers
  import opened Inventory

  /** The comparisons `hasCottonPart` can build. */
  datatype Comparison = MoreThan | LessThan | Equal

  /** One query predicate over a row. */
  datatype Criterion =
    | Conjunction                           // the always-true predicate
    | ColorIs(color: string)
    | CottonCompare(op: Comparison, value: int)
    | CottonBetween(min: int, max: int)     // inclusive at both ends
    | CottonAtLeast(min: int)
    | CottonAtMost(max: int)

  /** `greaterThan`, `lessThan` or `equal` of the criteria builder. */
  predicate CompareWith(op: Comparison, cottonPart: int, value: int)
  {
    match op
    case MoreThan => cottonPart > value
    case LessThan => cottonPart < value
    case Equal => cottonPart == value
  }

  /** Whether the row satisfies the predicate. */
  predicate Holds(c: Criterion, r: Socks)
  {
    match c
    case Conjunction => true
    case ColorIs(color) => r.color == color
    case CottonCompare(op, v) => CompareWith(op, r.cottonPart, v)
    case CottonBetween(lo, hi) => lo <= r.cottonPart <= hi
    case CottonAtLeast(lo) => lo <= r.cottonPart
    case CottonAtMost(hi) => r.cottonPart <= hi
  }

  /** A specification chained with `where(..).and(..)`: every part holds. */
  predicate HoldsAll(spec: seq<Criterion>, r: Socks)
  {
    forall i :: 0 <= i < |spec| ==> Holds(spec[i], r)
  }

  /** The operator names `hasCottonPart` understands; matching is exact and case-sensitive. */
  const OperatorNames: set<string> := {"moreThan", "lessThan", "equal"}

  /** What an operator name asks of a cotton part. */
  predicate Compares(operator: string, cottonPart: int, value: int)
  {
    || (operator == "moreThan" && cottonPart > value)
    || (operator == "lessThan" && cottonPart < value)
    || (operator == "equal" && cottonPart == value)
  }

  /** The `switch` on the operator name. */
  function ParseOperator(operator: string): Option<Comparison>
  {
    if operator == "moreThan" then Some(MoreThan)
    else if operator == "lessThan" then Some(LessThan)
    else if operator == "equal" then Some(Equal)
    else None
  }

  /** `hasColor`: no color matches every row, otherwise exact equality. */
  function HasColor(color: Option<string>): (c: Criterion)
    ensures forall r :: Holds(c, r) <==> (color.None? || r.color == color.value)
  {
    match color
    case None => Conjunction
    case Some(v) => ColorIs(v)
  }

  /**
   * `hasCottonPart`: without an operator or a value every row matches,
   * whatever the operator text; otherwise the named comparison, and an
   * unknown name is an error.
   */
  function HasCottonPart(operator: Option<string>, cottonPart: Option<int>): (r: Result<Criterion, Error>)
    ensures r.Failure? <==> operator.Some? && cottonPart.Some? && operator.value !in OperatorNames
    ensures r.Failure? ==> r.error == InvalidOperator
    ensures r.Success? ==> forall x ::
      Holds(r.value, x) <==> (operator.None? || cottonPart.None? || Compares(operator.value, x.cottonPart, cottonPart.value))
  {
    if operator.None? || cottonPart.None? then Success(Conjunction)
    else
      match ParseOperator(operator.value)
      case None => Failure(InvalidOperator)
      case Some(op) => Success(CottonCompare(op, cottonPart.value))
  }

  /**
   * `cottonPartBetween`: no bound matches every row; two bounds give the
   * inclusive range; one bound gives the matching one-sided comparison.
   */
  function CottonPartBetween(min: Option<int>, max: Option<int>): (c: Criterion)
    ensures forall x ::
      Holds(c, x) <==> (min.None? || min.value <= x.cottonPart) && (max.None? || x.cottonPart <= max.value)
  {
    if min.None? && max.None? then Conjunction
    else if min.Some? && max.Some? then CottonBetween(min.value, max.value)
    else if min.Some? then CottonAtLeast(min.value)
    else CottonAtMost(max.value)
  }

  /** A range whose lower bound exceeds its upper bound matches nothing. */
  lemma InvertedRangeMatchesNothing(min: int, max: int, x: Socks)
    requires min > max
    ensures !Holds(CottonPartBetween(Some(min), Some(max)), x)
  {
  }

  /** Near-miss operator names are errors, but only when a value is given. */
  lemma NearMissOperators(value: int)
    ensures HasCottonPart(Some("eq"), Some(value)) == Failure(InvalidOperator)
    ensures HasCottonPart(Some("greaterThan"), Some(value)) == Failure(InvalidOperator)
    ensures HasCottonPart(Some("EQUAL"), Some(value)) == Failure(InvalidOperator)
    ensures forall op :: HasCottonPart(Some(op), None) == Success(Conjunction)
  {
  }
}

=== FILE: text.dfy ===
/**
 * The few `java.lang.String` / `Integer` operations the service relies on,
 * restricted to ASCII: `toLowerCase`, `trim`, `endsWith`, `split(",")` and
 * `Integer.parseInt`.
 */
module JavaText {
  import opened Wrappers

  /** Bounds of a Java `int`. */
  const MinInt: int := -0x8000_0000
  const MaxInt: int := 0x7fff_ffff

  // ---------------------------------------------------------------------
  // toLowerCase

  /** `Character.toLowerCase` on ASCII: only 'A'..'Z' change. */
  function LowerChar(c: char): char
  {
    if 'A' <= c <= 'Z' then (c as int + 32) as char else c
  }

  /** `String.toLowerCase`, ASCII only. */
  function Lower(s: string): (r: string)
    ensures |r| == |s|
    ensures forall i :: 0 <= i < |s| ==> r[i] == LowerChar(s[i])
  {
    seq(|s|, i requires 0 <= i < |s| => LowerChar(s[i]))
  }

  /** No upper-case ASCII letter occurs in `s`. */
  predicate IsLowerCase(s: string)
  {
    forall i :: 0 <= i < |s| ==> !('A' <= s[i] <= 'Z')
  }

  /** Lower-casing leaves no upper-case letter behind. */
  lemma LowerIsLowerCase(s: string)
    ensures IsLowerCase(Lower(s))
  {
  }

  /** A string without upper-case letters is its own lower-case form. */
  lemma LowerOfLowerCase(s: string)
    requires IsLowerCase(s)
    ensures Lower(s) == s
  {
    assert forall i :: 0 <= i < |s| ==> Lower(s)[i] == s[i];
  }

  /** `toLowerCase` is idempotent. */
  lemma LowerIdempotent(s: string)
    ensures Lower(Lower(s)) == Lower(s)
  {
    LowerIsLowerCase(s);
    LowerOfLowerCase(Lower(s));
  }

  // ---------------------------------------------------------------------
  // trim

  /** `String.trim` strips every character whose code is at most that of the space. */
  predicate IsBlankChar(c: char)
  {
    c <= ' '
  }

  /** Neither end of `s` is a blank character. */
  predicate IsTrimmed(s: string)
  {
    |s| == 0 || (!IsBlankChar(s[0]) && !IsBlankChar(s[|s| - 1]))
  }

  /** Scans forward from `i` past blanks: the first non-blank index at or after `i`, or `|s|`. */
  function SkipBlanks(s: string, i: nat): (j: nat)
    requires i <= |s|
    ensures i <= j <= |s|
    ensures forall k :: i <= k < j ==> IsBlankChar(s[k])
    ensures j == |s| || !IsBlankChar(s[j])
    decreases |s| - i
  {
    if i < |s| && IsBlankChar(s[i]) then SkipBlanks(s, i + 1) else i
  }

  /** Scans back from `j` past blanks, never below `lo`: just after the last non-blank, or `lo`. */
  function BackBlanks(s: string, lo: nat, j: nat): (k: nat)
    requires lo <= j <= |s|
    ensures lo <= k <= j
    ensures forall m :: k <= m < j ==> IsBlankChar(s[m])
    ensures k == lo || !IsBlankChar(s[k - 1])
    decreases j - lo
  {
    if j > lo && IsBlankChar(s[j - 1]) then BackBlanks(s, lo, j - 1) else j
  }

  /** `s` is `r` with only blanks before it, starting at `a`, and only blanks after it. */
  predicate BlankPadded(s: string, r: string, a: int)
  {
    && 0 <= a <= |s| - |r|
    && s[a..a + |r|] == r
    && (forall k :: 0 <= k < a ==> IsBlankChar(s[k]))
    && (forall k :: a + |r| <= k < |s| ==> IsBlankChar(s[k]))
  }

  /**
   * `String.trim`: the part of `s` between its leading and its trailing
   * blanks. A trimmed text padded only by blanks is unique (`TrimUnique`),
   * so the contract determines the result.
   */
  function Trim(s: string): (r: string)
    ensures IsTrimmed(r)
    ensures |r| <= |s|
    ensures exists a :: BlankPadded(s, r, a)
  {
    var start := SkipBlanks(s, 0);
    var r := s[start..BackBlanks(s, start, |s|)];
    assert BlankPadded(s, r, start);
    r
  }

  /** Any trimmed text that `s` pads only with blanks is `Trim(s)`. */
  lemma TrimUnique(s: string, r: string, a: int)
    requires IsTrimmed(r) && BlankPadded(s, r, a)
    ensures r == Trim(s)
  {
    var b :| BlankPadded(s, Trim(s), b);
    var t := Trim(s);
    if |r| > 0 && |t| > 0 {
      // Both start at the first non-blank character and end at the last one.
      assert !IsBlankChar(s[a]) && !IsBlankChar(s[b]);
      assert a == b;
      assert !IsBlankChar(s[a + |r| - 1]) && !IsBlankChar(s[b + |t| - 1]);
      assert |r| == |t|;
    }
  }

  /** Trimming a string with no blank at either end changes nothing. */
  lemma TrimOfTrimmed(s: string)
    requires IsTrimmed(s)
    ensures Trim(s) == s
  {
  }

  /** Trimming keeps only characters of the original. */
  lemma TrimKeepsChars(s: string, c: char)
    requires c in Trim(s)
    ensures c in s
  {
    var start := SkipBlanks(s, 0);
    var i :| 0 <= i < |Trim(s)| && Trim(s)[i] == c;
    assert Trim(s)[i] == s[start + i];
  }

  /** Trimming a comma-free text leaves it comma-free. */
  lemma TrimKeepsCommaFree(s: string)
    ensures ',' !in s ==> ',' !in Trim(s)
  {
    if ',' in Trim(s) {
      TrimKeepsChars(s, ',');
    }
  }

  /** Lower-casing maps a comma to itself and nothing else to a comma. */
  lemma LowerKeepsCommaFree(s: string)
    requires ',' !in s
    ensures ',' !in Lower(s)
  {
  }

  /** Lower-casing neither adds nor removes blanks at the ends. */
  lemma LowerKeepsTrimmed(s: string)
    requires IsTrimmed(s)
    ensures IsTrimmed(Lower(s))
  {
  }

  // ---------------------------------------------------------------------
  // endsWith

  /** `String.endsWith`: `suffix` is the tail of `s`. */
  function EndsWith(s: string, suffix: string): (b: bool)
    ensures b <==> exists p :: s == p + suffix
  {
    if |suffix| > |s| then false
    else if s[|s| - |suffix|..] == suffix then
      assert s == s[..|s| - |suffix|] + suffix;
      true
    else false
  }

  // ---------------------------------------------------------------------
  // split(",")

  /** The comma-separated fields of `s`, empty ones included; there is always at least one. */
  function Fields(s: string): (r: seq<string>)
    ensures |r| >= 1
    decreases |s|
  {
    if |s| == 0 then [""]
    else
      var rest := Fields(s[1..]);
      if s[0] == ',' then [""] + rest
      else [[s[0]] + rest[0]] + rest[1..]
  }

  /** Glues fields back together with commas. */
  function Join(fs: seq<string>): string
    requires |fs| >= 1
    decreases |fs|
  {
    if |fs| == 1 then fs[0] else fs[0] + [','] + Join(fs[1..])
  }

  /** Joining one more field appends a comma and that field. */
  lemma {:induction false} JoinSnoc(fs: seq<string>, f: string)
    requires |fs| >= 1
    ensures Join(fs + [f]) == Join(fs) + [','] + f
    decreases |fs|
  {
    if |fs| == 1 {
      assert fs + [f] == [fs[0], f];
    } else {
      assert (fs + [f])[1..] == fs[1..] + [f];
      JoinSnoc(fs[1..], f);
    }
  }

  /** No field contains the separator. */
  predicate CommaFree(fs: seq<string>)
  {
    forall i :: 0 <= i < |fs| ==> ',' !in fs[i]
  }

  /** Splitting then joining gives the original text back, and no field holds a comma. */
  lemma {:induction false} JoinFields(s: string)
    ensures Join(Fields(s)) == s
    ensures CommaFree(Fields(s))
    decreases |s|
  {
    if |s| > 0 {
      JoinFields(s[1..]);
      var rest := Fields(s[1..]);
      if s[0] == ',' {
        assert Fields(s) == [""] + rest;
        assert (s[..1] + s[1..]) == s;
      } else {
        var fs := Fields(s);
        assert fs == [[s[0]] + rest[0]] + rest[1..];
        if |rest| == 1 {
          assert fs == [[s[0]] + rest[0]];
          assert Join(fs) == [s[0]] + s[1..];
        } else {
          assert fs[1..] == rest[1..];
          assert Join(rest) == rest[0] + [','] + Join(rest[1..]);
          assert Join(fs) == [s[0]] + rest[0] + [','] + Join(rest[1..]);
        }
        assert [s[0]] + s[1..] == s;
        forall i | 0 <= i < |fs| ensures ',' !in fs[i] {
          if i == 0 {
            assert fs[0] == [s[0]] + rest[0];
          } else {
            assert fs[i] == rest[i];
          }
        }
      }
    }
  }

  /** A text without commas is a single field. */
  lemma {:induction false} FieldsOfCommaFree(a: string)
    requires ',' !in a
    ensures Fields(a) == [a]
    decreases |a|
  {
    if |a| > 0 {
      FieldsOfCommaFree(a[1..]);
      assert [a[0]] + a[1..] == a;
    }
  }

  /** A comma-free first field is split off exactly. */
  lemma {:induction false} FieldsOfCons(a: string, rest: string)
    requires ',' !in a
    ensures Fields(a + [','] + rest) == [a] + Fields(rest)
    decreases |a|
  {
    if |a| == 0 {
      assert a + [','] + rest == [','] + rest;
      assert ([','] + rest)[1..] == rest;
    } else {
      var t := a[1..] + [','] + rest;
      assert (a + [','] + rest)[1..] == t;
      assert (a + [','] + rest)[0] == a[0];
      FieldsOfCons(a[1..], rest);
      assert [a[0]] + a[1..] == a;
    }
  }

  /** Joining comma-free fields and splitting again gives the same fields. */
  lemma {:induction false} FieldsOfJoin(fs: seq<string>)
    requires |fs| >= 1 && CommaFree(fs)
    ensures Fields(Join(fs)) == fs
    decreases |fs|
  {
    if |fs| == 1 {
      FieldsOfCommaFree(fs[0]);
    } else {
      assert ',' !in fs[0];
      assert CommaFree(fs[1..]) by {
        forall i | 0 <= i < |fs[1..]| ensures ',' !in fs[1..][i] {
          assert fs[1..][i] == fs[i + 1];
        }
      }
      FieldsOfJoin(fs[1..]);
      FieldsOfCons(fs[0], Join(fs[1..]));
      assert [fs[0]] + fs[1..] == fs;
    }
  }

  /** Removes the empty fields at the end, as `split` does with a zero limit. */
  function DropTrailingEmpty(fs: seq<string>): (r: seq<string>)
    ensures |r| <= |fs| && r == fs[..|r|]
    ensures forall k :: |r| <= k < |fs| ==> fs[k] == ""
    ensures |r| == 0 || r[|r| - 1] != ""
    decreases |fs|
  {
    if |fs| > 0 && fs[|fs| - 1] == "" then DropTrailingEmpty(fs[..|fs| - 1]) else fs
  }

  /**
   * `s.split(",")`: without any comma the whole text is the one field (even
   * when empty); otherwise the fields with trailing empty ones dropped.
   */
  function Split(s: string): (r: seq<string>)
    ensures CommaFree(r)
    ensures ',' !in s ==> r == [s]
    ensures ',' in s ==> |r| == 0 || r[|r| - 1] != ""
  {
    JoinFields(s);
    if ',' in s then DropTrailingEmpty(Fields(s)) else [s]
  }

  /**
   * Splitting comma-free fields joined with commas gives them back, provided
   * the last one is not empty when there are several (`split` would drop it).
   */
  lemma SplitJoin(fs: seq<string>)
    requires |fs| >= 1 && CommaFree(fs)
    requires |fs| == 1 || fs[|fs| - 1] != ""
    ensures Split(Join(fs)) == fs
  {
    FieldsOfJoin(fs);
    if |fs| >= 2 {
      assert Join(fs)[|fs[0]|] == ',';
    } else {
      assert Join(fs) == fs[0];
    }
  }

  /** A trailing comma only adds an empty last field, which `split` drops again. */
  lemma SplitJoinTrailingComma(fs: seq<string>)
    requires |fs| >= 1 && CommaFree(fs) && fs[|fs| - 1] != ""
    ensures Split(Join(fs) + ",") == fs
  {
    var gs := fs + [""];
    assert CommaFree(gs);
    FieldsOfJoin(gs);
    JoinSnoc(fs, "");
    assert Join(gs) == Join(fs) + ",";
    assert (Join(fs) + ",")[|Join(fs)|] == ',';
    assert gs[..|gs| - 1] == fs;
  }

  // ---------------------------------------------------------------------
  // Integer.parseInt

  predicate IsDigit(c: char)
  {
    '0' <= c <= '9'
  }

  predicate AllDigits(s: string)
  {
    forall i :: 0 <= i < |s| ==> IsDigit(s[i])
  }

  /** The natural number written in decimal by `ds`, most significant digit first. */
  function DigitsValue(ds: string): nat
    requires AllDigits(ds)
    decreases |ds|
  {
    if |ds| == 0 then 0
    else DigitsValue(ds[..|ds| - 1]) * 10 + (ds[|ds| - 1] as int - '0' as int)
  }

  /**
   * `Integer.parseInt(s)`: an optional sign followed by at least one decimal
   * digit, whose value fits a Java `int`; `None` where Java throws
   * `NumberFormatException`.
   */
  function ParseInt(s: string): (r: Option<int>)
    ensures r.Some? ==> MinInt <= r.value <= MaxInt
    ensures r.Some? ==> |s| > 0 && (var ds := if s[0] == '-' || s[0] == '+' then s[1..] else s; |ds| > 0 && AllDigits(ds))
    ensures |s| > 0 && AllDigits(s) && DigitsValue(s) <= MaxInt ==> r == Some(DigitsValue(s))
    ensures |s| > 0 && AllDigits(s) && DigitsValue(s) > MaxInt ==> r.None?
    ensures |s| > 1 && (s[0] == '-' || s[0] == '+') && AllDigits(s[1..]) ==>
      var v: int := if s[0] == '-' then -(DigitsValue(s[1..]) as int) else DigitsValue(s[1..]) as int;
      r == if MinInt <= v <= MaxInt then Some(v) else None
  {
    if |s| == 0 then None
    else
      var signed := s[0] == '-' || s[0] == '+';
      var digits := if signed then s[1..] else s;
      if |digits| == 0 || !AllDigits(digits) then None
      else
        var magnitude: int := DigitsValue(digits);
        var v := if s[0] == '-' then -magnitude else magnitude;
        if MinInt <= v <= MaxInt then Some(v) else None
  }

  /** The decimal digits of `n`, without leading zeros. */
  function ShowNat(n: nat): (r: string)
    ensures |r| >= 1 && AllDigits(r)
    decreases n
  {
    if n < 10 then [('0' as int + n) as char]
    else ShowNat(n / 10) + [('0' as int + n % 10) as char]
  }

  /** `Integer.toString(n)`. */
  function ShowInt(n: int): (r: string)
  {
    if n < 0 then "-" + ShowNat(-n) else ShowNat(n)
  }

  lemma {:induction false} DigitsOfShowNat(n: nat)
    ensures DigitsValue(ShowNat(n)) == n
    decreases n
  {
    if n >= 10 {
      DigitsOfShowNat(n / 10);
      var s := ShowNat(n);
      assert s[..|s| - 1] == ShowNat(n / 10);
    }
  }

  /** `parseInt` reads back every `int` that `toString` prints. */
  lemma ParseShowInt(n: int)
    requires MinInt <= n <= MaxInt
    ensures ParseInt(ShowInt(n)) == Some(n)
  {
    var s := ShowInt(n);
    if n < 0 {
      var ds := ShowNat(-n);
      assert s == "-" + ds && s[1..] == ds;
      DigitsOfShowNat(-n);
      assert |s| > 1 && s[0] == '-' && AllDigits(s[1..]) && DigitsValue(s[1..]) == -n;
    } else {
      DigitsOfShowNat(n);
      assert |s| > 0 && AllDigits(s) && DigitsValue(s) == n;
    }
  }

  /** `parseInt(trim(..))` reads back a printed `int`. */
  lemma ParseTrimShowInt(n: int)
    requires MinInt <= n <= MaxInt
    ensures ParseInt(Trim(ShowInt(n))) == Some(n)
    ensures ',' !in ShowInt(n) && ShowInt(n) != ""
  {
    ShowIntTrimmed(n);
    TrimOfTrimmed(ShowInt(n));
    ParseShowInt(n);
  }

  /** A printed `int` has no blank at either end and no comma. */
  lemma ShowIntTrimmed(n: int)
    ensures IsTrimmed(ShowInt(n))
    ensures ',' !in ShowInt(n)
  {
    var s := ShowInt(n);
    var d := ShowNat(if n < 0 then -n else n);
    assert IsDigit(d[|d| - 1]);
    if n < 0 {
      assert s[|s| - 1] == d[|d| - 1];
      assert forall i :: 1 <= i < |s| ==> s[i] == d[i - 1];
    } else {
      assert IsDigit(d[0]);
    }
  }
}

=== FILE: wrappers.dfy ===
/** Failure-carrying datatypes used in place of Java's null and exceptions. */
module Wrappers {

  /** A value that may be absent (a Java reference that may be null). */
  datatype Option<+T> = None | Some(value: T) {

    /** The value, or `default` when absent. */
    function GetOr(default: T): T
    {
      match this
      case Some(v) => v
      case None => default
    }
  }

  /** Either a value or the error the Java code would have thrown instead. */
  datatype Result<+T, +E> = Success(value: T) | Failure(error: E)
}
